=== FILE: README.md ===
# Spreadsheet formula parser and aggregate functions, in Dafny

A model of the formula parser of a small spreadsheet application
(`ComplexParser`) and of two of its aggregate functions, `Median.perform`
and `Mean.perform`.

The parser turns a cell's text into an expression tree. It strips the
surrounding whitespace and hands the text to the tokenizer. It then parses
the token list by the first rule that applies, in this order:

- split at the dominant arithmetic operator;
- parse the contents of a parenthesis;
- split the contents of `MEAN(...)`/`MEDIAN(...)` at commas;
- the empty expression;
- a `long` constant;
- a reference.

`parse` wraps every failure in a `ParseException`.

`Median.perform` sorts the arguments and takes the middle element, or the
truncated mean of the two middle elements when their number is even.
`Mean.perform` returns the average of the arguments truncated to a `long`,
and 0 when there are none.

Modules:

- `Wrappers`: `Option` for a Java reference that may be `null`, `Result` for
  a value or a thrown exception.
- `JavaLong`: the `long` range, two's-complement wrap-around, truncating
  division, and `Long.parseLong` and `ShowLong`, the rendering it inverts.
- `JavaString`: `String.strip` and `String.split` with a one-character
  separator.
- `Syntax`: tokens, expression trees and parse errors. The tokenizer is a
  parameter of type `Scanner`.
- `ComplexParser`: `tokenParse`, both `tryParse` overloads and `parse`.
- `ParserProperties`: the operator rule. It covers the choice of operator,
  the split, and the result and error of the rule.
- `ParserRules`: the parenthesis, aggregate, leaf, reference and constant
  rules, and whitespace independence.
- `FuelStability`: the fuel that bounds the nesting depth changes nothing
  but whether the parse runs out of it.
- `ParserExamples`: concrete spans such as the documented
  `4 + 5 + 7 * 12 + 3`, `-42`, `MEAN()` and `MEDIAN(,)`.
- `Totals`, `Sorting`: sums over sequences, ranks, and `Arrays.sort` as the
  unique sorted permutation.
- `Median`, `Mean`: the two aggregates, in two versions each. One is the
  source as written, with `long` overflow. The other is corrected.
- `AggregateExamples`: the values the unit tests expect, of both versions.
  On four arguments only the corrected median is worked out. The code as
  written agrees with it by `Median.AsWrittenAgreesWithoutOverflow`.

Where the code and its documentation disagree, the model follows the code:

- **Operator order.** The documentation of `parse` lists the operators to
  try as `= < + - * /`. The code (ComplexParser.java:72-78) scans
  `= < / * - + ,` and keeps the LAST one the span mentions. The effective
  precedence is therefore `, > + > - > * > / > < > =`
  (`ParserProperties.LaterOperatorWins`).
- **Unrecognised input.** The documentation says such input throws a
  `ParseException`. The code returns `null` when no rule applies
  (ComplexParser.java:136). It throws `ParseException("Unknown input")`
  only for a reference with a character that is neither a letter nor a
  digit. The model returns `Success(None)` in the first case and
  `Failure(UnknownInput(name))` in the second. A tokenizer failure also
  throws: on the whole input (line 57), inside a parenthesis group
  (line 98), or in an aggregate argument (lines 103 and 107, through
  line 57). The model reports it as `Failure(Lexical(message))`.

## Model

| member | source | states |
|---|---|---|
| ComplexParser.TokenParse | src/sheep/parsing/ComplexParser.java:69-137 | every outcome is sound: a tree has only known node shapes and letter-and-digit references, and an unknown-input error names an ill-formed reference |
| ComplexParser.ChooseOp | src/sheep/parsing/ComplexParser.java:72-78 | the loop keeps its starting choice when no listed symbol is mentioned; otherwise it ends with a mentioned symbol after which no listed symbol is mentioned |
| ComplexParser.DominantOp | src/sheep/parsing/ComplexParser.java:72-78 | no operator exactly when the span mentions none; otherwise the operator mentioned that comes last in `= < / * - + ,` |
| ParserProperties.DominantOpIsScan | src/sheep/parsing/ComplexParser.java:72-78 | the loop over the operator list, which overwrites its choice with each mentioned symbol, ends with the dominant operator |
| ParserProperties.LaterOperatorWins | src/sheep/parsing/ComplexParser.java:72-78 | of two mentioned symbols, the earlier one in the list is never chosen |
| ParserProperties.CommaSplitsFirst | src/sheep/parsing/ComplexParser.java:73-77 | a comma anywhere makes the span a comma split |
| ParserProperties.DominantOpIs | src/sheep/parsing/ComplexParser.java:72-78 | the last mentioned symbol of the list is the operator chosen |
| ParserProperties.DominantIsMentioned | src/sheep/parsing/ComplexParser.java:72-78 | the chosen operator is a list symbol the span mentions, and no mentioned symbol comes after it |
| ComplexParser.SplitOn | src/sheep/parsing/ComplexParser.java:80-93 | one segment more than there are separators; no segment contains the separator |
| ParserProperties.SplitJoin | src/sheep/parsing/ComplexParser.java:80-93 | putting the separators back between the segments rebuilds the span |
| ParserProperties.SplitUnique | src/sheep/parsing/ComplexParser.java:80-93 | any cut of the span at `op` tokens into `op`-free segments is the split |
| ComplexParser.SplitParse | src/sheep/parsing/ComplexParser.java:79-95 | success is one `op` node with one operand per segment |
| ParserProperties.OperatorRule | src/sheep/parsing/ComplexParser.java:79-95 | success exactly when every segment parses; the node then holds the segments' parses in order |
| ParserProperties.OperatorRuleFailure | src/sheep/parsing/ComplexParser.java:88-93 | a failed split reports the error of the first segment that fails, from left to right |
| ParserProperties.OperatorNode | src/sheep/parsing/ComplexParser.java:79-95 | segments that parse to given operands give the `op` node over exactly those operands |
| ComplexParser.ParseSpans | src/sheep/parsing/ComplexParser.java:86-93 | one sound parse per segment, as many as there are segments |
| ComplexParser.AlphanumericChars | src/sheep/parsing/ComplexParser.java:130 | ASCII letters and digits qualify, nothing outside ASCII does, and operator symbols, parentheses, space, underscore and dot do not; so a non-empty all-alphanumeric name is never an operator |
| ParserProperties.ParseSpansSuccess | src/sheep/parsing/ComplexParser.java:88-93 | the segments collect exactly when each parses, to their parses in order |
| ParserProperties.ParseSpansFailure | src/sheep/parsing/ComplexParser.java:88-93 | a failed collection carries the first segment's failure |
| ComplexParser.GroupParse | src/sheep/parsing/ComplexParser.java:96-101 | success is a one-operand node named `""` |
| ParserRules.GroupRule | src/sheep/parsing/ComplexParser.java:96-101 | with no operator, the first parenthesis decides: its contents are scanned unstripped, the scanner's error is passed on, otherwise the inner parse's result or error is wrapped |
| ParserRules.GroupIgnoresOthers | src/sheep/parsing/ComplexParser.java:96-101 | every other token of the span is ignored, aggregates included |
| ComplexParser.AggregateParse | src/sheep/parsing/ComplexParser.java:102-111 | success is a node named after the function, with one operand per comma piece |
| ParserRules.AggregateRule | src/sheep/parsing/ComplexParser.java:102-111 | with no operator or parenthesis, the first MEAN/MEDIAN gives its node exactly when every comma piece parses, with the pieces' parses in order |
| ParserRules.AggregateRuleFailure | src/sheep/parsing/ComplexParser.java:102-111 | a failed aggregate reports the first failing piece's error |
| ParserRules.AggregateParseRule | src/sheep/parsing/ComplexParser.java:102-111 | the aggregate node holds exactly the pieces' parses, in order |
| ParserRules.AggregateParseFailure | src/sheep/parsing/ComplexParser.java:102-111 | a failed aggregate token carries its first failing piece's error |
| ComplexParser.ParseLeaf | src/sheep/parsing/ComplexParser.java:112-136 | an empty span is `Empty`; the first valid long constant wins; otherwise the first reference, if all letters and digits, else an error naming it; otherwise no expression |
| ParserRules.LeafRule | src/sheep/parsing/ComplexParser.java:112-136 | with no operator, parenthesis or aggregate, the leaf rules decide |
| ParserRules.NoExpressionIff | src/sheep/parsing/ComplexParser.java:136 | `null` exactly when the span is non-empty and no rule applies |
| ParserRules.ReferenceRule | src/sheep/parsing/ComplexParser.java:126-135 | a lone reference token is a reference when it is letters and digits, and an `Unknown input` error otherwise |
| ParserRules.ConstantRule | src/sheep/parsing/ComplexParser.java:115-125 | a lone constant token is the constant when `Long.parseLong` accepts it, and no expression when it does not |
| ParserRules.ConstantSkipsInvalid | src/sheep/parsing/ComplexParser.java:115-125 | rejected constants are skipped, and a valid constant beats an earlier reference |
| ParserRules.NoOperatorNamed | src/sheep/parsing/ComplexParser.java:75 | names longer than one character mention no operator |
| ParserRules.ParsedLongIsNoOperator | src/sheep/parsing/ComplexParser.java:73 | no text `Long.parseLong` accepts is an operator symbol |
| ComplexParser.TryParseAll | src/sheep/parsing/ComplexParser.java:39-45 | one parse per piece, every outcome sound |
| ParserRules.TryParseAllSuccess | src/sheep/parsing/ComplexParser.java:39-45 | success exactly when each piece parses, with the pieces' parses in order |
| ParserRules.TryParseAllFailure | src/sheep/parsing/ComplexParser.java:39-45 | failure carries the first failing piece's error |
| ComplexParser.TryParse | src/sheep/parsing/ComplexParser.java:55-59 | a tokenizer failure on the stripped text (line 57) is the result, as a lexical error; every outcome is sound |
| ParserRules.TryParseIgnoresSurroundingWhitespace | src/sheep/parsing/ComplexParser.java:55-59 | leading and trailing whitespace does not change the result |
| ComplexParser.Parse | src/sheep/parsing/ComplexParser.java:201-208 | a returned tree is well formed; an unknown-input cause names a reference with a character other than a letter or digit; a tokenizer failure on the stripped input is the cause, as a lexical error; blank input that scans to no tokens is the empty expression |
| FuelStability.TokenParseStable | src/sheep/parsing/ComplexParser.java:69-137 | with one more unit of fuel, `tokenParse` gives the same result unless it ran out of fuel |
| FuelStability.GroupParseStable | src/sheep/parsing/ComplexParser.java:96-101 | the same for the parenthesis rule |
| FuelStability.AggregateParseStable | src/sheep/parsing/ComplexParser.java:102-111 | the same for the `MEAN`/`MEDIAN` rule |
| FuelStability.ParseSpansStable | src/sheep/parsing/ComplexParser.java:86-93 | the same for the operands of a split |
| FuelStability.TryParseAllStable | src/sheep/parsing/ComplexParser.java:39-45 | the same for `tryParse` over the pieces |
| FuelStability.TryParseStable | src/sheep/parsing/ComplexParser.java:55-59 | the same for `tryParse` of one text |
| FuelStability.ParseStable | src/sheep/parsing/ComplexParser.java:201-208 | the same for `parse` |
| FuelStability.ParseSettles | src/sheep/parsing/ComplexParser.java:201-208 | once `parse` does not run out of fuel, any larger amount gives the same answer, so the bound only cuts off the deepest inputs |
| ParserRules.ParseIgnoresSurroundingWhitespace | src/sheep/parsing/ComplexParser.java:201-208 | whitespace around the input does not matter; whitespace alone is the empty expression |
| ParserExamples.SumExample | src/sheep/parsing/ComplexParser.java:193-194 | `4 + 5 + 7 * 12 + 3` splits at `+` into four operand spans: 4, 5, the product of 7 and 12, and 3 |
| ParserExamples.SumTree | src/sheep/parsing/ComplexParser.java:193-194 | `4 + 5 + 7 * 12 + 3` parses to one `+` node over 4, 5, the `*` node of 7 and 12, and 3 |
| ParserExamples.SumTreeShape | src/sheep/parsing/ComplexParser.java:169-170 | any `a + b + x * y + e` over valid constants is one four-operand `+` node whose third operand is the `*` node |
| ParserExamples.FourOperandNode | src/sheep/parsing/ComplexParser.java:79-95 | four segments that parse to given operands give the four-operand node |
| ParserExamples.SumShape | src/sheep/parsing/ComplexParser.java:169-170 | a chain of `+` is split into all its operands at once, not nested |
| ParserExamples.ProductShape | src/sheep/parsing/ComplexParser.java:79-95 | two constants around `*` make one `*` node over both |
| ParserExamples.NegationShape | test/sheep/parsing/ComplexScannerTest.java:63-68 | `-42` scans as a minus and a constant and so parses to a `-` node over `Empty` and the constant |
| ParserExamples.NegativeExample | test/sheep/parsing/ComplexScannerTest.java:63-68 | `-42` parses to `-`(Empty, 42) |
| ParserExamples.EmptyMeanExample | src/sheep/parsing/ComplexParser.java:102-106 | `MEAN()` has one operand, the empty expression |
| ParserExamples.CommaOnlyMedianExample | src/sheep/parsing/ComplexParser.java:107-110 | `MEDIAN(,)` has no operands |
| ParserExamples.OneConstant | src/sheep/parsing/ComplexParser.java:115-125 | a valid constant token parses to its value |
| ParserExamples.EmptySpan | src/sheep/parsing/ComplexParser.java:112-114 | no tokens give the empty expression |
| JavaLong.ParseLong | src/sheep/parsing/ComplexParser.java:119 | a result needs a non-empty text, and a negative one a leading minus |
| JavaLong.ParseLongDenotes | src/sheep/parsing/ComplexParser.java:119-122 | a text is accepted with value v exactly when v is a `long` and the text is an optional sign (`-` for a negative v, not `-` for a positive one), zeros, then the rendering of the magnitude of v |
| JavaLong.ParseLongSound | src/sheep/parsing/ComplexParser.java:119 | every accepted text is a sign, zeros and the rendering of its value, so no stray character is accepted |
| JavaLong.ParseLongComplete | src/sheep/parsing/ComplexParser.java:119 | every such text for a `long` is accepted, with that value |
| JavaLong.PlusSignAccepted | src/sheep/parsing/ComplexParser.java:119 | a leading `+` is accepted and does not change the value |
| JavaLong.ShowOfCanonical | src/sheep/parsing/ComplexParser.java:119 | a digit run without a leading zero is the rendering of its own value |
| JavaLong.ParseShowLong | src/sheep/parsing/ComplexParser.java:119 | every `long` survives a round trip through its decimal text |
| JavaLong.LeadingZerosAccepted | src/sheep/parsing/ComplexParser.java:119 | leading zeros do not change the parse |
| JavaLong.TooManyDigitsRejected | src/sheep/parsing/ComplexParser.java:119-122 | twenty or more significant digits are rejected |
| ParserRules.ExampleConstantTexts | src/sheep/parsing/ComplexParser.java:119-122 | `007` is 7, `+7` is 7, `-0` is 0; a twenty-digit number, a lone `+` and `5x` are rejected |
| JavaString.Strip | src/sheep/parsing/ComplexParser.java:56 | the infix left after removing all leading and trailing whitespace |
| JavaString.WhitespaceChars | src/sheep/parsing/ComplexParser.java:56 | the characters `strip()` removes, listed one by one; the non-breaking spaces U+00A0, U+2007 and U+202F are not among them |
| JavaString.StripIdempotent | src/sheep/parsing/ComplexParser.java:56 | stripping twice is stripping once |
| JavaString.Split | src/sheep/parsing/ComplexParser.java:104 | pieces hold no separator; no separator gives the text itself; trailing empty pieces are dropped |
| JavaString.SplitJoin | src/sheep/parsing/ComplexParser.java:104 | joining the pieces gives back the text without its trailing separators |
| Sorting.Sort | src/sheep/expression/arithmetic/Median.java:28 | ascending, same length, same multiset of elements |
| Sorting.SortedUnique | src/sheep/expression/arithmetic/Median.java:28 | a sorted arrangement is determined by its elements |
| Sorting.SortRank | src/sheep/expression/arithmetic/Median.java:28-32 | the sorted array's element at `k` is exactly the element of rank `k` |
| Median.Perform | src/sheep/expression/arithmetic/Median.java:27-35 | no value exactly for no arguments; a value lies between two arguments |
| Median.OddMedian | src/sheep/expression/arithmetic/Median.java:30-33 | for an odd count, the median is `v` exactly when `v` has the middle rank |
| Median.EvenMedian | src/sheep/expression/arithmetic/Median.java:34 | for an even count, the median is the truncated mean of the two middle-rank elements |
| Median.MiddleRanksExist | src/sheep/expression/arithmetic/Median.java:29-34 | the two middle ranks of an even count are held by arguments |
| Median.OrderIndependent | src/sheep/expression/arithmetic/Median.java:28 | the median depends only on the multiset of arguments |
| Median.MidPoint | src/sheep/expression/arithmetic/Median.java:34 | lies between the two values, and is their sum halved toward zero |
| Median.PerformAsWritten | src/sheep/expression/arithmetic/Median.java:27-35 | no value exactly for no arguments; for an odd count it is the median, since only the even case adds |
| Median.MidPointAsWritten | src/sheep/expression/arithmetic/Median.java:34 | the wrapped sum halved agrees with the exact midpoint whenever the sum fits a `long` |
| JavaLong.Wrap64 | src/sheep/expression/arithmetic/Median.java:34 | the `long` congruent to the exact value modulo 2^64, and the value itself when it fits |
| JavaLong.TruncDiv | src/sheep/expression/arithmetic/Median.java:34 | the quotient rounded toward zero, as Java's `/` on `long` rounds |
| Median.AsWrittenAgreesWithoutOverflow | src/sheep/expression/arithmetic/Median.java:34 | the as-written median is the median when the arguments lie in half the `long` range |
| Median.OverflowExample | src/sheep/expression/arithmetic/Median.java:34 | two largest `long`s have median `MaxLong`, but the code answers -1 |
| Mean.Perform | src/sheep/expression/arithmetic/Mean.java:26-30 | 0 for no arguments; otherwise the exact sum divided by the count, truncated toward zero |
| Mean.TruncatedQuotientUnique | src/sheep/expression/arithmetic/Mean.java:29 | the truncated quotient is unique |
| Mean.MeanBetween | src/sheep/expression/arithmetic/Mean.java:28-29 | the mean lies between any bounds of the arguments |
| Mean.OrderIndependent | src/sheep/expression/arithmetic/Mean.java:28 | the mean depends only on the multiset of arguments |
| Mean.PerformAsWritten | src/sheep/expression/arithmetic/Mean.java:26-30 | the wrapped `long` sum divided by the count, truncated toward zero |
| Mean.AsWrittenAgreesWithoutOverflow | src/sheep/expression/arithmetic/Mean.java:28 | the as-written mean is the mean when the sum fits a `long` |
| Mean.OverflowExample | src/sheep/expression/arithmetic/Mean.java:28 | `MaxLong` and 1 have mean 2^62, but the code answers -2^62 |
| AggregateExamples.SingleArgument | test/sheep/expression/arithmetic/MedianTest.java:24-29 | the median and the mean of 20 are 20, both as written and corrected |
| AggregateExamples.TwoArgumentsMedian | test/sheep/expression/arithmetic/MedianTest.java:41-46 | the median of 20 and 10 is 15 |
| AggregateExamples.TwoArgumentsMedianAsWritten | test/sheep/expression/arithmetic/MedianTest.java:41-46 | the code as written also gives 15 |
| AggregateExamples.TwoArgumentsMean | test/sheep/expression/arithmetic/MeanTest.java:41-46 | the mean of 20 and 10 is 15, both as written and corrected |
| AggregateExamples.FourArgumentsMedian | test/sheep/expression/arithmetic/MedianTest.java:60-67 | the median of 20, 2, 5, 2 is 3 |
| AggregateExamples.FourArgumentsMean | test/sheep/expression/arithmetic/MeanTest.java:60-67 | the mean of 20, 2, 5, 2 is 7, both as written and corrected |
| AggregateExamples.RepeatedArguments | test/sheep/expression/arithmetic/MedianTest.java:48-58 | the median of 20, 2, 2, 2 is 2 |
| AggregateExamples.NoArguments | src/sheep/expression/arithmetic/Median.java:30-34 | no arguments: no median, and a mean of 0, both as written and corrected |

## Left out

- The tokenizer `ComplexScanner.tokenize` is not part of this model. The
  parser takes it as a parameter (`Syntax.Scanner`), and its failures
  become `Lexical` errors.
- The expression factory and the `Expression` classes are not part of this
  model. The parser builds plain trees (`Syntax.Expr`) instead. So the
  factory's `InvalidExpression` errors, such as for an unknown operator
  name, do not occur.
- The evaluation of `MEAN`/`MEDIAN` nodes (`Function.value`) is not
  modelled. Only `perform` on the argument values is.
- ComplexParser.TokenParse: the depth of parenthesis and aggregate nesting
  is bounded by a `fuel` argument. Out of fuel, the parse fails with
  `TooDeep`, where the source would recurse on. Operator splits do not use
  fuel. `FuelStability` proves that any other outcome stays the same with
  more fuel.
- ComplexParser.IsAlphanumeric: `Character.isAlphabetic` and
  `Character.isDigit` are restricted to ASCII letters and digits. The same
  holds for the digits `Long.parseLong` accepts.
- The `contents` of a non-function token is Java `null` in the source and
  `""` here. The parser never reads it.
- Mean.PerformAsWritten: the division is exact integer division truncated
  toward zero. The source divides in `double` and truncates that, which
  rounds differently once the absolute sum exceeds 2^53.
- Mean.Perform: the `System.out.println` call is output only and is left
  out.
- Median.Perform: `Arrays.sort` sorts the caller's array in place. The
  model is functional: it returns the median and leaves its argument
  unchanged, and the sorted arrangement is `Sorting.Sort` of the arguments.
  (`Mean.perform` does not change its argument, and neither does
  `Mean.Perform`.)

## Findings

| source | as written | input that shows it | evidently intended | confidence | as-written member | corrected member |
|---|---|---|---|---|---|---|
| src/sheep/expression/arithmetic/Median.java:34 | `(a + b) / 2` in `long` arithmetic, where the sum can wrap around | the arguments `MaxLong, MaxLong` give -1 | the truncated mean of the two middle elements, which always fits a `long` (here `MaxLong`) | not executed | Median.OverflowExample | Median.EvenMedian |
| src/sheep/expression/arithmetic/Mean.java:28 | the stream sums the `long`s in `long` arithmetic before averaging, so the sum can wrap around | the arguments `MaxLong, 1` give -2^62 | the average of the values, 2^62 | not executed | Mean.OverflowExample | Mean.Perform |

=== FILE: aggregate_examples.dfy ===
/** The values the unit tests expect of `Median.perform` and
    `Mean.perform`, for both the code as written and the corrected
    version. */
module AggregateExamples {
  import opened Wrappers
  import opened JavaLong
  import opened Totals
  import opened Sorting
  import Median
  import Mean

  /** Small arguments: the code as written gives the same median. */
  lemma MedianAsWritten(args: seq<Int64>, v: Int64)
    requires forall i | 0 <= i < |args| :: -1000 <= args[i] <= 1000
    requires Median.Perform(args) == Some(v)
    ensures Median.PerformAsWritten(args) == Some(v)
  {
    Median.AsWrittenAgreesWithoutOverflow(args);
  }

  /** One argument is its own median and mean. */
  lemma SingleArgument()
    ensures Median.Perform([20]) == Some(20)
    ensures Mean.Perform([20]) == 20
    ensures Median.PerformAsWritten([20]) == Some(20)
    ensures Mean.PerformAsWritten([20]) == 20
  {
    SortedUnique(Sort([20]), [20]);
    assert Total([20], Mean.Identity) == 20;
    Mean.AsWrittenAgreesWithoutOverflow([20]);
  }

  /** Two arguments: 20 and 10 have median 15. */
  lemma SortedTwoMedian()
    ensures Median.Perform([10, 20]) == Some(15)
  {
    Median.SortedMedian([10, 20]);
    assert Median.MidPoint(10, 20) == 15;
  }

  lemma TwoArgumentsMedian()
    ensures Median.Perform([20, 10]) == Some(15)
  {
    assert multiset([20, 10]) == multiset([10, 20]);
    Median.OrderIndependent([20, 10], [10, 20]);
    SortedTwoMedian();
  }

  lemma TwoArgumentsMedianAsWritten()
    ensures Median.PerformAsWritten([20, 10]) == Some(15)
  {
    TwoArgumentsMedian();
    MedianAsWritten([20, 10], 15);
  }

  /** Two arguments: 20 and 10 have mean 15. */
  lemma TwoArgumentsMean()
    ensures Mean.Perform([20, 10]) == 15
    ensures Mean.PerformAsWritten([20, 10]) == 15
  {
    assert [20, 10][1..] == [10];
    assert Total([10], Mean.Identity) == 10;
    assert Mean.Sum([20, 10]) == 30;
    Mean.AsWrittenAgreesWithoutOverflow([20, 10]);
  }

  /** Arguments 2, 2, 5, 20 in any order: the median is (2 + 5) / 2 = 3
      with truncation. */
  lemma SortedFourMedian()
    ensures Median.Perform([2, 2, 5, 20]) == Some(3)
  {
    Median.SortedMedian([2, 2, 5, 20]);
    assert Median.MidPoint(2, 5) == 3;
  }

  lemma FourArgumentsMedian()
    ensures Median.Perform([20, 2, 5, 2]) == Some(3)
  {
    assert multiset([20, 2, 5, 2]) == multiset([2, 2, 5, 20]);
    Median.OrderIndependent([20, 2, 5, 2], [2, 2, 5, 20]);
    SortedFourMedian();
  }

  /** 20, 2, 5, 2: the mean is 29 / 4 = 7 with truncation, not the median. */
  lemma FourArgumentsMean()
    ensures Mean.Perform([20, 2, 5, 2]) == 7
    ensures Mean.PerformAsWritten([20, 2, 5, 2]) == 7
  {
    assert [20, 2, 5, 2][1..] == [2, 5, 2];
    assert [2, 5, 2][1..] == [5, 2];
    assert [5, 2][1..] == [2];
    assert Total([2], Mean.Identity) == 2;
    assert Mean.Sum([20, 2, 5, 2]) == 29;
    Mean.AsWrittenAgreesWithoutOverflow([20, 2, 5, 2]);
  }

  /** 20, 2, 2, 2: the two middle elements are both 2. */
  lemma SortedRepeatedMedian()
    ensures Median.Perform([2, 2, 2, 20]) == Some(2)
  {
    Median.SortedMedian([2, 2, 2, 20]);
    assert Median.MidPoint(2, 2) == 2;
  }

  lemma RepeatedArguments()
    ensures Median.Perform([20, 2, 2, 2]) == Some(2)
  {
    assert multiset([20, 2, 2, 2]) == multiset([2, 2, 2, 20]);
    Median.OrderIndependent([20, 2, 2, 2], [2, 2, 2, 20]);
    SortedRepeatedMedian();
  }

  /** No arguments: the median has no value (the source throws), the mean
      is 0. */
  lemma NoArguments()
    ensures Median.Perform([]).None?
    ensures Mean.Perform([]) == 0
    ensures Median.PerformAsWritten([]).None?
    ensures Mean.PerformAsWritten([]) == 0
  {
  }
}

=== FILE: complex_parser.dfy ===
/** `ComplexParser`: from a token span to an expression tree. */
module ComplexParser {
  import opened Wrappers
  import opened JavaLong
  import opened JavaString
  import opened Syntax

  /** The operator symbols in the order the parser scans them; a symbol
      found later in this list overrides one found earlier. */
  const Operators: seq<string> := ["=", "<", "/", "*", "-", "+", ","]

  /** Some token of the span has exactly this name (of whatever kind). */
  predicate Mentions(ts: seq<Token>, name: string) {
    exists i | 0 <= i < |ts| :: ts[i].name == name
  }

  /** The scan over `ops`: each symbol some token is named after replaces
      the current choice. */
  function ChooseOp(ts: seq<Token>, ops: seq<string>, current: Option<string>): (r: Option<string>)
    ensures (forall k | 0 <= k < |ops| :: !Mentions(ts, ops[k])) ==> r == current
    ensures (exists k | 0 <= k < |ops| :: Mentions(ts, ops[k])) ==>
              exists j | 0 <= j < |ops| ::
                && r == Some(ops[j])
                && Mentions(ts, ops[j])
                && forall l | j < l < |ops| :: !Mentions(ts, ops[l])
    decreases |ops|
  {
    if |ops| == 0 then current
    else
      var next := if Mentions(ts, ops[0]) then Some(ops[0]) else current;
      assert (exists k | 1 <= k < |ops| :: Mentions(ts, ops[k])) ==>
             exists k | 0 <= k < |ops[1..]| :: Mentions(ts, ops[1..][k]) by {
        if exists k | 1 <= k < |ops| :: Mentions(ts, ops[k]) {
          var k :| 1 <= k < |ops| && Mentions(ts, ops[k]);
          assert ops[1..][k - 1] == ops[k];
        }
      }
      assert forall l | 1 <= l < |ops| :: ops[l] == ops[1..][l - 1];
      ChooseOp(ts, ops[1..], next)
  }

  /** The position of `name` in `Operators`, or -1 when it is none of
      them. */
  function OperatorIndex(name: string): (j: int)
    ensures -1 <= j < |Operators|
    ensures forall k | 0 <= k < |Operators| :: Operators[k] == name <==> k == j
  {
    if name == "," then 6
    else if name == "+" then 5
    else if name == "-" then 4
    else if name == "*" then 3
    else if name == "/" then 2
    else if name == "<" then 1
    else if name == "=" then 0
    else -1
  }

  /** The largest `OperatorIndex` of a token name of the span, or -1. */
  function HighestOperatorIndex(ts: seq<Token>): (m: int)
    ensures -1 <= m < |Operators|
    ensures forall i | 0 <= i < |ts| :: OperatorIndex(ts[i].name) <= m
    ensures m >= 0 ==> exists i | 0 <= i < |ts| :: OperatorIndex(ts[i].name) == m
  {
    if |ts| == 0 then -1
    else
      var first := OperatorIndex(ts[0].name);
      var rest := HighestOperatorIndex(ts[1..]);
      assert forall i | 1 <= i < |ts| :: ts[i] == ts[1..][i - 1];
      if first > rest then first else rest
  }

  /** The operator the span is split on, if any: the one mentioned that
      comes last in `Operators`. It is what the scan `ChooseOp` over all of
      `Operators` ends with (`ParserProperties.DominantOpIsScan`). */
  function DominantOp(ts: seq<Token>): (r: Option<string>)
    ensures r.None? <==> forall k | 0 <= k < |Operators| :: !Mentions(ts, Operators[k])
    ensures r.Some? ==>
              exists j | 0 <= j < |Operators| ::
                && r.value == Operators[j]
                && Mentions(ts, Operators[j])
                && forall l | j < l < |Operators| :: !Mentions(ts, Operators[l])
  {
    var m := HighestOperatorIndex(ts);
    assert forall k | 0 <= k < |Operators| && Mentions(ts, Operators[k]) :: k <= m by {
      forall k | 0 <= k < |Operators| && Mentions(ts, Operators[k])
        ensures k <= m
      {
        var i :| 0 <= i < |ts| && ts[i].name == Operators[k];
        assert OperatorIndex(ts[i].name) == k;
      }
    }
    if m < 0 then None
    else
      var i :| 0 <= i < |ts| && OperatorIndex(ts[i].name) == m;
      assert Mentions(ts, Operators[m]);
      Some(Operators[m])
  }

  /** How many tokens of the span are named `op`. */
  function Count(ts: seq<Token>, op: string): (n: nat)
    ensures n <= |ts|
    ensures n == 0 <==> !Mentions(ts, op)
  {
    if |ts| == 0 then 0
    else
      assert forall i | 1 <= i < |ts| :: ts[i] == ts[1..][i - 1];
      (if ts[0].name == op then 1 else 0) + Count(ts[1..], op)
  }

  /** The segments strictly between consecutive tokens named `op` (and
      before the first, after the last). */
  function SplitOn(ts: seq<Token>, op: string): (segs: seq<seq<Token>>)
    ensures |segs| == Count(ts, op) + 1
    ensures forall k | 0 <= k < |segs| :: !Mentions(segs[k], op)
    ensures forall k | 0 <= k < |segs| :: |segs[k]| + Count(ts, op) <= |ts|
  {
    if |ts| == 0 then [[]]
    else
      var rest := SplitOn(ts[1..], op);
      if ts[0].name == op then [[]] + rest
      else
        var first := [ts[0]] + rest[0];
        assert forall i | 1 <= i < |first| :: first[i] == rest[0][i - 1];
        [first] + rest[1..]
  }

  /** The tokens named `op`, in order: what `SplitOn` cuts at. */
  function Separators(ts: seq<Token>, op: string): (seps: seq<Token>)
    ensures |seps| == Count(ts, op)
    ensures forall k | 0 <= k < |seps| :: seps[k].name == op
  {
    if |ts| == 0 then []
    else if ts[0].name == op then [ts[0]] + Separators(ts[1..], op)
    else Separators(ts[1..], op)
  }

  /** Segments with one separator token between each two. */
  function Join(segs: seq<seq<Token>>, seps: seq<Token>): seq<Token>
    requires |segs| == |seps| + 1
  {
    if |seps| == 0 then segs[0] else segs[0] + [seps[0]] + Join(segs[1..], seps[1..])
  }

  predicate IsGroup(t: Token) {
    t.kind == FUNC && t.name == ""
  }

  predicate IsAggregate(t: Token) {
    t.kind == FUNC && (t.name == "MEAN" || t.name == "MEDIAN")
  }

  predicate IsLongConst(t: Token) {
    t.kind == CONST && ParseLong(t.name).Some?
  }

  predicate IsReferenceToken(t: Token) {
    t.kind == REFERENCE
  }

  /** Index of the first token satisfying `p`, or `|ts|` when there is none. */
  function FirstWhere(ts: seq<Token>, p: Token -> bool): (i: nat)
    ensures i <= |ts|
    ensures i < |ts| ==> p(ts[i])
    ensures forall k | 0 <= k < i :: !p(ts[k])
  {
    if |ts| == 0 then 0
    else if p(ts[0]) then 0
    else
      var i := FirstWhere(ts[1..], p);
      assert forall k | 1 <= k < 1 + i :: ts[k] == ts[1..][k - 1];
      1 + i
  }

  /** `Character.isAlphabetic(c) || Character.isDigit(c)`, on ASCII. */
  predicate IsAlphanumeric(c: char) {
    ('a' <= c <= 'z') || ('A' <= c <= 'Z') || ('0' <= c <= '9')
  }

  /** Letters and digits qualify; everything a reference name may use is
      ASCII; the operator symbols, parentheses, space, underscore and dot
      do not qualify, so an all-alphanumeric name is never an operator. */
  lemma AlphanumericChars(c: char, name: string)
    ensures IsDigit(c) || 'a' <= c <= 'z' || 'A' <= c <= 'Z' ==> IsAlphanumeric(c)
    ensures IsAlphanumeric(c) ==> c as int < 128
    ensures c in "=</*-+,() _." ==> !IsAlphanumeric(c)
    ensures AllAlphanumeric(name) && |name| > 0 ==> name !in Operators
  {
    if AllAlphanumeric(name) && |name| > 0 {
      assert IsAlphanumeric(name[0]);
    }
  }

  predicate AllAlphanumeric(s: string) {
    forall i | 0 <= i < |s| :: IsAlphanumeric(s[i])
  }

  predicate KnownShape(name: string, arity: nat) {
    || (|name| == 1 && name[0] in "=</*-+," && arity >= 2)
    || (name == "" && arity == 1)
    || name == "MEAN" || name == "MEDIAN"
  }

  /** The node shapes the parser builds: a split operator with at least two
      operands, a parenthesis group with exactly one, an aggregate with any
      number, and references of letters and digits only. */
  predicate WellFormed(e: Expr) {
    match e
    case Empty => true
    case Constant(_) => true
    case Reference(n) => AllAlphanumeric(n)
    case Op(name, args) =>
      && KnownShape(name, |args|)
      && forall k | 0 <= k < |args| :: args[k].Some? ==> WellFormed(args[k].value)
  }

  /** A parse outcome the parser can produce: a well-formed tree, no tree,
      or an error that names a reference only when it is ill-formed. */
  predicate Sound(r: Result<Option<Expr>, ParseError>) {
    && (r.Success? && r.value.Some? ==> WellFormed(r.value.value))
    && (r.Failure? && r.error.UnknownInput? ==> !AllAlphanumeric(r.error.name))
  }

  predicate SoundAll(r: Result<seq<Option<Expr>>, ParseError>) {
    && (r.Success? ==> forall k | 0 <= k < |r.value| :: r.value[k].Some? ==> WellFormed(r.value[k].value))
    && (r.Failure? && r.error.UnknownInput? ==> !AllAlphanumeric(r.error.name))
  }

  /** A call of the scanner, its failure becoming a parse error. */
  function Scan(scan: Scanner, text: string): (r: Result<seq<Token>, ParseError>)
    ensures scan(text).Success? ==> r == Success(scan(text).value)
    ensures scan(text).Failure? ==> r == Failure(Lexical(scan(text).error))
  {
    match scan(text)
    case Success(ts) => Success(ts)
    case Failure(message) => Failure(Lexical(message))
  }

  /** `ts[k]` is the first token of the span satisfying `p`. */
  predicate FirstIs(ts: seq<Token>, k: int, p: Token -> bool) {
    0 <= k < |ts| && p(ts[k]) && forall j | 0 <= j < k :: !p(ts[j])
  }

  /** The last rules of `tokenParse`, for a span with no operator,
      parenthesis or aggregate: an empty span is `Empty`; otherwise the first
      constant token that is a valid long; otherwise the first reference
      token, which must consist of letters and digits; otherwise no
      expression. */
  function ParseLeaf(ts: seq<Token>): (r: Result<Option<Expr>, ParseError>)
    ensures Sound(r)
    ensures |ts| == 0 ==> r == Success(Some(Empty))
    ensures forall k | FirstIs(ts, k, IsLongConst) ::
              r == Success(Some(Constant(ParseLong(ts[k].name).value)))
    ensures (forall k | 0 <= k < |ts| :: !IsLongConst(ts[k])) ==>
              forall k | FirstIs(ts, k, IsReferenceToken) ::
                r == (if AllAlphanumeric(ts[k].name) then Success(Some(Reference(ts[k].name)))
                      else Failure(UnknownInput(ts[k].name)))
    ensures |ts| > 0 && (forall k | 0 <= k < |ts| :: !IsLongConst(ts[k]) && !IsReferenceToken(ts[k])) ==>
              r == Success(None)
  {
    if |ts| == 0 then Success(Some(Empty))
    else
      var c := FirstWhere(ts, IsLongConst);
      if c < |ts| then Success(Some(Constant(ParseLong(ts[c].name).value)))
      else
        var f := FirstWhere(ts, IsReferenceToken);
        if f < |ts| then
          if AllAlphanumeric(ts[f].name) then Success(Some(Reference(ts[f].name)))
          else Failure(UnknownInput(ts[f].name))
        else Success(None)
  }

  /** `tokenParse`. The rules are tried in order: split on the dominant
      operator; parse the contents of the first plain parenthesis; split
      the contents of the first MEAN/MEDIAN at commas; then the leaf rules.
      `fuel` bounds only how deeply parenthesised text is re-scanned. */
  function TokenParse(scan: Scanner, ts: seq<Token>, fuel: nat): (r: Result<Option<Expr>, ParseError>)
    ensures Sound(r)
    decreases fuel, 0, |ts|, 3, 0
  {
    match DominantOp(ts)
    case Some(op) => SplitParse(scan, ts, op, fuel)
    case None =>
      var g := FirstWhere(ts, IsGroup);
      if g < |ts| then GroupParse(scan, ts[g], fuel)
      else
        var a := FirstWhere(ts, IsAggregate);
        if a < |ts| then AggregateParse(scan, ts[a], fuel)
        else ParseLeaf(ts)
  }

  /** The operator rule: one `op` node whose operands are the parses of the
      segments between the tokens named `op`. */
  function SplitParse(scan: Scanner, ts: seq<Token>, op: string, fuel: nat): (r: Result<Option<Expr>, ParseError>)
    requires op in Operators && Mentions(ts, op)
    ensures Sound(r)
    ensures r.Success? ==>
              && r.value.Some? && r.value.value.Op? && r.value.value.name == op
              && |r.value.value.args| == Count(ts, op) + 1
    decreases fuel, 0, |ts|, 2, 0
  {
    var args :- ParseSpans(scan, SplitOn(ts, op), fuel, |ts|);
    OperatorSymbol(op);
    Success(Some(Op(op, args)))
  }

  lemma OperatorSymbol(op: string)
    requires op in Operators
    ensures |op| == 1 && op[0] in "=</*-+,"
  {
  }

  /** The parenthesis rule: the token's contents scanned and parsed, wrapped
      in a one-operand node named `""`. */
  function GroupParse(scan: Scanner, t: Token, fuel: nat): (r: Result<Option<Expr>, ParseError>)
    ensures Sound(r)
    ensures r.Success? ==> r.value.Some? && r.value.value.Op? && r.value.value.name == "" && |r.value.value.args| == 1
    decreases fuel, 0, 0, 0, 0
  {
    if fuel == 0 then Failure(TooDeep)
    else
      var inner :- Scan(scan, t.contents);
      var e :- TokenParse(scan, inner, fuel - 1);
      Success(Some(Op("", [e])))
  }

  /** The MEAN/MEDIAN rule: the token's contents split at every comma, each
      piece parsed on its own. */
  function AggregateParse(scan: Scanner, t: Token, fuel: nat): (r: Result<Option<Expr>, ParseError>)
    requires IsAggregate(t)
    ensures Sound(r)
    ensures r.Success? ==>
              && r.value.Some? && r.value.value.Op? && r.value.value.name == t.name
              && |r.value.value.args| == |Split(t.contents, ',')|
    decreases fuel, 0, 0, 0, 0
  {
    if fuel == 0 then Failure(TooDeep)
    else
      var args :- TryParseAll(scan, Split(t.contents, ','), fuel - 1);
      Success(Some(Op(t.name, args)))
  }

  /** The values of all the results, or the first failure among them. */
  function Collect<T(==), E(==)>(rs: seq<Result<T, E>>): (r: Result<seq<T>, E>)
    ensures r.Success? <==> forall k | 0 <= k < |rs| :: rs[k].Success?
    ensures r.Success? ==> |r.value| == |rs| && forall k | 0 <= k < |rs| :: rs[k] == Success(r.value[k])
    ensures r.Failure? ==>
              exists k | 0 <= k < |rs| :: rs[k] == Failure(r.error) && forall j | 0 <= j < k :: rs[j].Success?
  {
    if |rs| == 0 then Success([])
    else if rs[0].Failure? then Failure(rs[0].error)
    else
      var tail := Collect(rs[1..]);
      assert forall k | 1 <= k < |rs| :: rs[k] == rs[1..][k - 1];
      if tail.Failure? then
        var k :| 0 <= k < |rs[1..]| && rs[1..][k] == Failure(tail.error)
                 && forall j | 0 <= j < k :: rs[1..][j].Success?;
        assert rs[k + 1] == Failure(tail.error);
        Failure(tail.error)
      else
        var vs := [rs[0].value] + tail.value;
        assert forall k | 1 <= k < |rs| :: vs[k] == tail.value[k - 1];
        Success(vs)
  }

  lemma CollectSound(rs: seq<Result<Option<Expr>, ParseError>>)
    requires forall k | 0 <= k < |rs| :: Sound(rs[k])
    ensures SoundAll(Collect(rs))
  {
    var r := Collect(rs);
    if r.Success? {
      forall k | 0 <= k < |r.value| && r.value[k].Some?
        ensures WellFormed(r.value[k].value)
      {
        assert Sound(rs[k]);
      }
    } else {
      var k :| 0 <= k < |rs| && rs[k] == Failure(r.error);
      assert Sound(rs[k]);
    }
  }

  /** The operands of a split, each span parsed on its own; the first
      failure, left to right, is the result. */
  function ParseSpans(scan: Scanner, spans: seq<seq<Token>>, fuel: nat, bound: nat)
    : (r: Result<seq<Option<Expr>>, ParseError>)
    requires forall k | 0 <= k < |spans| :: |spans[k]| < bound
    ensures SoundAll(r)
    ensures r.Success? ==> |r.value| == |spans|
    decreases fuel, 0, bound, 1, 0
  {
    var rs := seq(|spans|, k requires 0 <= k < |spans| => TokenParse(scan, spans[k], fuel));
    CollectSound(rs);
    Collect(rs)
  }

  /** `tryParse(String[])`: each piece parsed on its own; the first failure,
      left to right, is the result. */
  function TryParseAll(scan: Scanner, pieces: seq<string>, fuel: nat)
    : (r: Result<seq<Option<Expr>>, ParseError>)
    ensures SoundAll(r)
    ensures r.Success? ==> |r.value| == |pieces|
    decreases fuel, 1, 0, 1, 0
  {
    var rs := seq(|pieces|, k requires 0 <= k < |pieces| => TryParse(scan, pieces[k], fuel));
    CollectSound(rs);
    Collect(rs)
  }

  /** `tryParse(String)`: strip surrounding whitespace, scan, parse. */
  function TryParse(scan: Scanner, input: string, fuel: nat): (r: Result<Option<Expr>, ParseError>)
    ensures Sound(r)
    ensures scan(Strip(input)).Failure? ==> r == Failure(Lexical(scan(Strip(input)).error))
    decreases fuel, 1, 0, 0, 0
  {
    var ts :- Scan(scan, Strip(input));
    TokenParse(scan, ts, fuel)
  }

  /** `ParseException`, wrapping the cause of any failure. */
  datatype ParseException = ParseException(cause: ParseError)

  /** `parse`: `tryParse` with every failure rethrown as a
      `ParseException`. A tree it returns is well formed; an unknown-input
      cause names a reference with a character other than a letter or
      digit; a tokenizer failure on the stripped input is the cause as a
      lexical error; blank input the tokenizer maps to no tokens is the
      empty expression. */
  function Parse(scan: Scanner, input: string, fuel: nat): (r: Result<Option<Expr>, ParseException>)
    ensures r.Success? <==> TryParse(scan, input, fuel).Success?
    ensures r.Success? ==> r.value == TryParse(scan, input, fuel).value
    ensures r.Failure? ==> r.error.cause == TryParse(scan, input, fuel).error
    ensures r.Success? && r.value.Some? ==> WellFormed(r.value.value)
    ensures r.Failure? && r.error.cause.UnknownInput? ==> !AllAlphanumeric(r.error.cause.name)
    ensures scan(Strip(input)).Failure? ==> r == Failure(ParseException(Lexical(scan(Strip(input)).error)))
    ensures scan(Strip(input)) == Success([]) ==> r == Success(Some(Empty))
  {
    match TryParse(scan, input, fuel)
    case Success(e) => Success(e)
    case Failure(cause) => Failure(ParseException(cause))
  }
}

=== FILE: fuel.dfy ===
/** The `fuel` argument of the parser only bounds the nesting depth: any
    outcome other than running out of fuel stays the same with more fuel,
    so `parse` settles on one answer, the one the unbounded recursion of
    the source gives. */
module FuelStability {
  import opened Wrappers
  import opened JavaString
  import opened Syntax
  import opened ComplexParser
  import ParserProperties
  import ParserRules

  /** Collecting results that keep their value, except where they ran out of
      fuel, keeps the collected value, unless it ran out of fuel itself. */
  lemma {:induction false} CollectStable<T, E>(rs: seq<Result<T, E>>, rs': seq<Result<T, E>>, bad: E)
    requires |rs| == |rs'|
    requires forall k | 0 <= k < |rs| :: rs[k] != Failure(bad) ==> rs'[k] == rs[k]
    ensures Collect(rs) != Failure(bad) ==> Collect(rs') == Collect(rs)
    decreases |rs|
  {
    if |rs| > 0 && rs[0].Success? {
      assert rs'[0] == rs[0];
      assert forall k | 0 <= k < |rs[1..]| :: rs[1..][k] == rs[k + 1] && rs'[1..][k] == rs'[k + 1];
      CollectStable(rs[1..], rs'[1..], bad);
    }
  }

  lemma {:induction false} TokenParseStable(scan: Scanner, ts: seq<Token>, fuel: nat)
    ensures TokenParse(scan, ts, fuel) != Failure(TooDeep) ==>
              TokenParse(scan, ts, fuel + 1) == TokenParse(scan, ts, fuel)
    decreases fuel, 0, |ts|, 3, 0
  {
    match DominantOp(ts)
    case Some(op) =>
      ParserProperties.DominantIsMentioned(ts, op);
      SplitParseStable(scan, ts, op, fuel);
    case None =>
      var g := FirstWhere(ts, IsGroup);
      if g < |ts| {
        GroupParseStable(scan, ts[g], fuel);
      } else {
        var a := FirstWhere(ts, IsAggregate);
        if a < |ts| {
          AggregateParseStable(scan, ts[a], fuel);
        }
      }
  }

  lemma {:induction false} SplitParseStable(scan: Scanner, ts: seq<Token>, op: string, fuel: nat)
    requires op in Operators && Mentions(ts, op)
    ensures SplitParse(scan, ts, op, fuel) != Failure(TooDeep) ==>
              SplitParse(scan, ts, op, fuel + 1) == SplitParse(scan, ts, op, fuel)
    decreases fuel, 0, |ts|, 2, 0
  {
    ParseSpansStable(scan, SplitOn(ts, op), fuel, |ts|);
  }

  lemma {:induction false} ParseSpansStable(scan: Scanner, spans: seq<seq<Token>>, fuel: nat, bound: nat)
    requires forall k | 0 <= k < |spans| :: |spans[k]| < bound
    ensures ParseSpans(scan, spans, fuel, bound) != Failure(TooDeep) ==>
              ParseSpans(scan, spans, fuel + 1, bound) == ParseSpans(scan, spans, fuel, bound)
    decreases fuel, 0, bound, 1, 0
  {
    var rs := seq(|spans|, k requires 0 <= k < |spans| => TokenParse(scan, spans[k], fuel));
    var rs' := seq(|spans|, k requires 0 <= k < |spans| => TokenParse(scan, spans[k], fuel + 1));
    forall k | 0 <= k < |spans|
      ensures rs[k] != Failure(TooDeep) ==> rs'[k] == rs[k]
    {
      TokenParseStable(scan, spans[k], fuel);
    }
    CollectStable(rs, rs', TooDeep);
  }

  lemma {:induction false} GroupParseStable(scan: Scanner, t: Token, fuel: nat)
    ensures GroupParse(scan, t, fuel) != Failure(TooDeep) ==>
              GroupParse(scan, t, fuel + 1) == GroupParse(scan, t, fuel)
    decreases fuel, 0, 0, 0, 0
  {
    if fuel > 0 && scan(t.contents).Success? {
      var inner := scan(t.contents).value;
      TokenParseStable(scan, inner, fuel - 1);
    }
  }

  lemma {:induction false} AggregateParseStable(scan: Scanner, t: Token, fuel: nat)
    requires IsAggregate(t)
    ensures AggregateParse(scan, t, fuel) != Failure(TooDeep) ==>
              AggregateParse(scan, t, fuel + 1) == AggregateParse(scan, t, fuel)
    decreases fuel, 0, 0, 0, 0
  {
    if fuel > 0 {
      var pieces := Split(t.contents, ',');
      TryParseAllStable(scan, pieces, fuel - 1);
      NodeStable(t.name, TryParseAll(scan, pieces, fuel - 1), TryParseAll(scan, pieces, fuel),
                 AggregateParse(scan, t, fuel), AggregateParse(scan, t, fuel + 1));
    }
  }

  /** An operator node built from arguments that keep their value keeps
      its value too. */
  lemma NodeStable(name: string, ps: Result<seq<Option<Expr>>, ParseError>, ps': Result<seq<Option<Expr>>, ParseError>,
                   r: Result<Option<Expr>, ParseError>, r': Result<Option<Expr>, ParseError>)
    requires ps != Failure(TooDeep) ==> ps' == ps
    requires r == if ps.Success? then Success(Some(Op(name, ps.value))) else Failure(ps.error)
    requires r' == if ps'.Success? then Success(Some(Op(name, ps'.value))) else Failure(ps'.error)
    ensures r != Failure(TooDeep) ==> r' == r
  {
  }

  lemma {:induction false} TryParseAllStable(scan: Scanner, pieces: seq<string>, fuel: nat)
    ensures TryParseAll(scan, pieces, fuel) != Failure(TooDeep) ==>
              TryParseAll(scan, pieces, fuel + 1) == TryParseAll(scan, pieces, fuel)
    decreases fuel, 1, 0, 1, 0
  {
    var rs := seq(|pieces|, k requires 0 <= k < |pieces| => TryParse(scan, pieces[k], fuel));
    var rs' := seq(|pieces|, k requires 0 <= k < |pieces| => TryParse(scan, pieces[k], fuel + 1));
    forall k | 0 <= k < |pieces|
      ensures rs[k] != Failure(TooDeep) ==> rs'[k] == rs[k]
    {
      TryParseStable(scan, pieces[k], fuel);
    }
    CollectStable(rs, rs', TooDeep);
  }

  lemma {:induction false} TryParseStable(scan: Scanner, input: string, fuel: nat)
    ensures TryParse(scan, input, fuel) != Failure(TooDeep) ==>
              TryParse(scan, input, fuel + 1) == TryParse(scan, input, fuel)
    decreases fuel, 1, 0, 0, 0
  {
    if scan(Strip(input)).Success? {
      TokenParseStable(scan, scan(Strip(input)).value, fuel);
    }
  }

  /** With one more unit of fuel, `parse` gives the same answer unless it
      ran out of fuel. */
  lemma ParseStable(scan: Scanner, input: string, fuel: nat)
    ensures Parse(scan, input, fuel) != Failure(ParseException(TooDeep)) ==>
              Parse(scan, input, fuel + 1) == Parse(scan, input, fuel)
  {
    TryParseStable(scan, input, fuel);
  }

  /** Any amount of further fuel gives the same answer: once `parse` does
      not run out of fuel, its result is final. */
  lemma {:induction false} ParseSettles(scan: Scanner, input: string, fuel: nat, more: nat)
    requires fuel <= more
    ensures Parse(scan, input, fuel) != Failure(ParseException(TooDeep)) ==>
              Parse(scan, input, more) == Parse(scan, input, fuel)
    decreases more - fuel
  {
    if fuel < more {
      ParseStable(scan, input, fuel);
      ParseSettles(scan, input, fuel + 1, more);
    }
  }
}

=== FILE: java_long.dfy ===
/** Java `long` arithmetic and `Long.parseLong`, written out over unbounded
    integers. */
module JavaLong {
  import opened Wrappers

  const MinLong: int := -0x8000_0000_0000_0000
  const MaxLong: int := 0x7FFF_FFFF_FFFF_FFFF
  const TwoTo64: int := 0x1_0000_0000_0000_0000

  /** The values a Java `long` can hold. */
  type Int64 = x: int | MinLong <= x <= MaxLong

  /** Two's-complement wrap-around of Java `long` addition: the unique value of
      the `long` range congruent to `x` modulo 2^64. */
  function Wrap64(x: int): (r: Int64)
    ensures (r - x) % TwoTo64 == 0
    ensures MinLong <= x <= MaxLong ==> r == x
  {
    var m := (x - MinLong) % TwoTo64;
    m + MinLong
  }

  lemma DivBounds(a: int, d: int)
    requires a >= 0 && d > 0
    ensures 0 <= (a / d) * d <= a < (a / d) * d + d
  {
    var q := a / d;
    assert a == d * q + a % d;
    assert q * d == d * q;
  }

  /** Java's integer `/`, which truncates toward zero (Dafny's `/` is
      Euclidean). */
  function TruncDiv(a: int, d: int): (q: int)
    requires d > 0
    ensures a >= 0 ==> 0 <= q * d <= a < q * d + d
    ensures a < 0 ==> q * d - d < a <= q * d <= 0
  {
    if a >= 0 then
      DivBounds(a, d);
      a / d
    else
      DivBounds(-a, d);
      var q' := (-a) / d;
      assert (-q') * d == -(q' * d);
      -q'
  }

  predicate IsDigit(c: char) {
    '0' <= c <= '9'
  }

  predicate AllDigits(s: string) {
    forall i | 0 <= i < |s| :: IsDigit(s[i])
  }

  function DigitValue(c: char): (v: nat)
    requires IsDigit(c)
    ensures v < 10
  {
    c as int - '0' as int
  }

  function DigitChar(v: nat): (c: char)
    requires v < 10
    ensures IsDigit(c) && DigitValue(c) == v
  {
    ('0' as int + v) as char
  }

  /** The value of a run of decimal digits, most significant first. */
  function DigitsValue(s: string): nat
    requires AllDigits(s)
  {
    if |s| == 0 then 0 else DigitsValue(s[..|s| - 1]) * 10 + DigitValue(s[|s| - 1])
  }

  /** `Long.parseLong(s)`: an optional `-` or `+` sign followed by one or more
      decimal digits whose value lies in the `long` range; `None` where Java
      throws `NumberFormatException`. */
  function ParseLong(s: string): (r: Option<Int64>)
    ensures r.Some? ==> |s| > 0
    ensures r.Some? && r.value < 0 ==> s[0] == '-'
  {
    if |s| == 0 then None
    else if s[0] == '-' || s[0] == '+' then
      var digits := s[1..];
      if |digits| == 0 || !AllDigits(digits) then None
      else
        var v := if s[0] == '-' then -(DigitsValue(digits) as int) else DigitsValue(digits);
        if MinLong <= v <= MaxLong then Some(v) else None
    else if AllDigits(s) && DigitsValue(s) <= MaxLong then Some(DigitsValue(s))
    else None
  }

  /** Decimal rendering of a natural number, without leading zeros. */
  function ShowNat(n: nat): (s: string)
    ensures |s| > 0 && AllDigits(s)
    ensures |s| > 1 ==> s[0] != '0'
  {
    if n < 10 then [DigitChar(n)] else ShowNat(n / 10) + [DigitChar(n % 10)]
  }

  /** `Long.toString(v)`: the rendering that `ParseLong` inverts. */
  function ShowLong(v: Int64): string {
    if v < 0 then "-" + ShowNat(-(v as int)) else ShowNat(v)
  }

  lemma {:induction false} ShowNatValue(n: nat)
    ensures DigitsValue(ShowNat(n)) == n
  {
    var s := ShowNat(n);
    if n >= 10 {
      ShowNatValue(n / 10);
      assert s[..|s| - 1] == ShowNat(n / 10);
    }
  }

  /** Round trip: parsing the rendering of any `long` gives it back. */
  lemma ParseShowLong(v: Int64)
    ensures ParseLong(ShowLong(v)) == Some(v)
  {
    ShowNatValue(if v < 0 then -(v as int) else v);
    if v < 0 {
      assert ShowLong(v)[1..] == ShowNat(-(v as int));
    }
  }

  lemma {:induction false} ZerosValue(z: string)
    requires forall i | 0 <= i < |z| :: z[i] == '0'
    ensures AllDigits(z) && DigitsValue(z) == 0
  {
    if |z| > 0 {
      ZerosValue(z[..|z| - 1]);
    }
  }

  /** Leading zeros do not change the value of a digit run. */
  lemma {:induction false} LeadingZerosValue(z: string, s: string)
    requires forall i | 0 <= i < |z| :: z[i] == '0'
    requires AllDigits(s)
    ensures AllDigits(z + s) && DigitsValue(z + s) == DigitsValue(s)
  {
    if |s| == 0 {
      assert z + s == z;
      ZerosValue(z);
    } else {
      LeadingZerosValue(z, s[..|s| - 1]);
      assert (z + s)[..|z + s| - 1] == z + s[..|s| - 1];
    }
  }

  /** `Long.parseLong` accepts leading zeros: `"007"` parses as 7. */
  lemma LeadingZerosAccepted(z: string, s: string)
    requires forall i | 0 <= i < |z| :: z[i] == '0'
    requires |s| > 0 && AllDigits(s)
    ensures ParseLong(z + s) == ParseLong(s)
  {
    LeadingZerosValue(z, s);
    if |z| > 0 {
      assert (z + s)[0] == '0';
    } else {
      assert z + s == s;
    }
  }
  /** A `+` sign is accepted as well: `"+7"` parses as 7. */
  lemma PlusSignAccepted(s: string)
    requires |s| > 0 && AllDigits(s)
    ensures ParseLong("+" + s) == ParseLong(s)
  {
    assert ("+" + s)[1..] == s;
  }

  // ---------------------------------------------------------------------
  // What an accepted text looks like

  function Abs(v: int): nat {
    if v < 0 then -v else v
  }

  /** The length of the optional leading sign. */
  function SignLength(s: string): (n: nat)
    ensures n <= 1 && n <= |s|
  {
    if |s| > 0 && (s[0] == '-' || s[0] == '+') then 1 else 0
  }

  /** `s` is a decimal text for `v`: an optional sign, which is `-` when `v`
      is negative and not `-` when `v` is positive, then zeros, then the
      rendering of the magnitude of `v` without leading zeros. */
  predicate Denotes(s: string, v: int) {
    var i := SignLength(s);
    && (v < 0 ==> i == 1 && s[0] == '-')
    && (v > 0 ==> i == 0 || s[0] == '+')
    && exists j | i <= j <= |s| ::
         && (forall k | i <= k < j :: s[k] == '0')
         && s[j..] == ShowNat(Abs(v))
  }

  /** A digit run without leading zero is the rendering of its value. */
  lemma {:induction false} ShowOfCanonical(d: string)
    requires |d| > 0 && AllDigits(d) && (|d| > 1 ==> d[0] != '0')
    ensures ShowNat(DigitsValue(d)) == d
    decreases |d|
  {
    var n := DigitsValue(d);
    var c := d[|d| - 1];
    assert DigitChar(DigitValue(c)) == c;
    if |d| > 1 {
      var prefix := d[..|d| - 1];
      assert prefix[0] == d[0];
      ShowOfCanonical(prefix);
      if |prefix| > 1 {
        DigitsLowerBound(prefix);
      }
      assert DigitsValue(prefix) >= 1;
      assert n / 10 == DigitsValue(prefix) && n % 10 == DigitValue(c);
      assert d == prefix + [c];
    }
  }

  /** Every non-empty digit run is zeros followed by the rendering of its
      value. */
  lemma SplitLeadingZeros(d: string) returns (k: nat)
    requires |d| > 0 && AllDigits(d)
    ensures k < |d|
    ensures forall i | 0 <= i < k :: d[i] == '0'
    ensures ShowNat(DigitsValue(d)) == d[k..]
  {
    k := 0;
    while k < |d| - 1 && d[k] == '0'
      invariant k < |d|
      invariant forall i | 0 <= i < k :: d[i] == '0'
    {
      k := k + 1;
    }
    LeadingZerosValue(d[..k], d[k..]);
    assert d[..k] + d[k..] == d;
    ShowOfCanonical(d[k..]);
  }

  /** The digits after the sign of a text for `v` are a run worth the
      magnitude of `v`. */
  lemma DenotedDigits(s: string, v: int)
    requires Denotes(s, v)
    ensures var digits := s[SignLength(s)..];
            |digits| > 0 && AllDigits(digits) && DigitsValue(digits) == Abs(v)
  {
    var i := SignLength(s);
    var j :| i <= j <= |s| && (forall k | i <= k < j :: s[k] == '0') && s[j..] == ShowNat(Abs(v));
    var digits := s[i..];
    assert digits == s[i..j] + s[j..];
    LeadingZerosValue(s[i..j], s[j..]);
    ShowNatValue(Abs(v));
  }

  /** Every text `Long.parseLong` accepts is a decimal text for its value. */
  lemma ParseLongSound(s: string)
    requires ParseLong(s).Some?
    ensures Denotes(s, ParseLong(s).value)
  {
    var v := ParseLong(s).value;
    var i := SignLength(s);
    var digits := s[i..];
    assert |digits| > 0 && AllDigits(digits);
    assert Abs(v) == DigitsValue(digits);
    var k := SplitLeadingZeros(digits);
    assert s[i + k..] == digits[k..];
    assert forall l | i <= l < i + k :: s[l] == digits[l - i];
  }

  /** Every decimal text for a `long` is accepted, with that value. */
  lemma ParseLongComplete(s: string, v: int)
    requires MinLong <= v <= MaxLong && Denotes(s, v)
    ensures ParseLong(s) == Some(v)
  {
    DenotedDigits(s, v);
    if SignLength(s) == 0 {
      assert s[0..] == s;
    }
  }

  /** `Long.parseLong` accepts exactly the decimal texts of the values in
      the `long` range, and gives the value they denote. */
  lemma ParseLongDenotes(s: string, v: int)
    ensures ParseLong(s) == Some(v) <==> MinLong <= v <= MaxLong && Denotes(s, v)
  {
    if ParseLong(s) == Some(v) {
      ParseLongSound(s);
    }
    if MinLong <= v <= MaxLong && Denotes(s, v) {
      ParseLongComplete(s, v);
    }
  }

  function Pow10(n: nat): (p: nat)
    ensures p >= 1
  {
    if n == 0 then 1 else 10 * Pow10(n - 1)
  }

  lemma {:induction false} Pow10Monotone(m: nat, n: nat)
    requires m <= n
    ensures Pow10(m) <= Pow10(n)
    decreases n
  {
    if m < n {
      Pow10Monotone(m, n - 1);
    }
  }

  /** A run of digits without leading zero is worth at least the power of
      ten of its length less one. */
  lemma {:induction false} DigitsLowerBound(s: string)
    requires |s| > 0 && AllDigits(s) && s[0] != '0'
    ensures DigitsValue(s) >= Pow10(|s| - 1)
    decreases |s|
  {
    if |s| > 1 {
      var prefix := s[..|s| - 1];
      assert prefix[0] == s[0];
      DigitsLowerBound(prefix);
    }
  }

  /** Twenty or more significant digits overflow a `long`, so
      `Long.parseLong` rejects them. */
  lemma TooManyDigitsRejected(s: string)
    requires |s| >= 20 && AllDigits(s) && s[0] != '0'
    ensures ParseLong(s).None?
  {
    DigitsLowerBound(s);
    Pow10Monotone(19, |s| - 1);
    assert Pow10(4) == 10000;
    assert Pow10(8) == 100000000;
    assert Pow10(12) == 1000000000000;
    assert Pow10(16) == 10000000000000000;
    assert Pow10(19) == 10000000000000000000;
  }

}

=== FILE: java_string.dfy ===
/** The two `java.lang.String` operations the parser relies on:
    `strip()` and `split(",")`. */
module JavaString {

  /** `Character.isWhitespace`: the ASCII controls TAB, LF, VT, FF, CR and
      FS..US, plus the Unicode space, line and paragraph separators except
      the non-breaking ones (U+00A0, U+2007, U+202F). */
  predicate IsWhitespace(c: char) {
    || ('\t' <= c <= '\r')
    || ('\U{1C}' <= c <= ' ')
    || c == '\U{1680}'
    || ('\U{2000}' <= c <= '\U{2006}')
    || ('\U{2008}' <= c <= '\U{200A}')
    || c == '\U{2028}' || c == '\U{2029}' || c == '\U{205F}' || c == '\U{3000}'
  }

  /** The whitespace characters listed one by one: the non-breaking spaces
      U+00A0, U+2007 and U+202F are not among them. */
  lemma WhitespaceChars(c: char)
    ensures IsWhitespace(c) <==>
              c in "\t\n\U{0B}\U{0C}\r\U{1C}\U{1D}\U{1E}\U{1F} \U{1680}\U{2000}\U{2001}\U{2002}\U{2003}\U{2004}\U{2005}\U{2006}\U{2008}\U{2009}\U{200A}\U{2028}\U{2029}\U{205F}\U{3000}"
    ensures !IsWhitespace('\U{A0}') && !IsWhitespace('\U{2007}') && !IsWhitespace('\U{202F}')
  {
  }

  /** Index of the first non-whitespace character at or after `from`
      (`|s|` when there is none). */
  function FirstNonWhitespace(s: string, from: nat): (i: nat)
    requires from <= |s|
    ensures from <= i <= |s|
    ensures forall k | from <= k < i :: IsWhitespace(s[k])
    ensures i < |s| ==> !IsWhitespace(s[i])
    decreases |s| - from
  {
    if from < |s| && IsWhitespace(s[from]) then FirstNonWhitespace(s, from + 1) else from
  }

  /** One past the last non-whitespace character in `s[lo..hi]` (`lo` when
      there is none). */
  function EndOfNonWhitespace(s: string, lo: nat, hi: nat): (j: nat)
    requires lo <= hi <= |s|
    ensures lo <= j <= hi
    ensures forall k | j <= k < hi :: IsWhitespace(s[k])
    ensures j > lo ==> !IsWhitespace(s[j - 1])
    decreases hi
  {
    if hi > lo && IsWhitespace(s[hi - 1]) then EndOfNonWhitespace(s, lo, hi - 1) else hi
  }

  /** `String.strip()`: the infix of `s` left after removing all leading and
      all trailing whitespace. */
  function Strip(s: string): (r: string)
    ensures var i := FirstNonWhitespace(s, 0);
              && i + |r| <= |s| && r == s[i..i + |r|]
              && (forall k | 0 <= k < i :: IsWhitespace(s[k]))
              && (forall k | i + |r| <= k < |s| :: IsWhitespace(s[k]))
    ensures |r| > 0 ==> !IsWhitespace(r[0]) && !IsWhitespace(r[|r| - 1])
  {
    var i := FirstNonWhitespace(s, 0);
    var j := EndOfNonWhitespace(s, i, |s|);
    s[i..j]
  }

  /** Stripping twice is stripping once. */
  lemma StripIdempotent(s: string)
    ensures Strip(Strip(s)) == Strip(s)
  {
    var r := Strip(s);
    if |r| > 0 {
      assert FirstNonWhitespace(r, 0) == 0;
      assert EndOfNonWhitespace(r, 0, |r|) == |r|;
    } else {
      assert FirstNonWhitespace(r, 0) == 0;
    }
  }

  function CountChar(s: string, c: char): (n: nat)
    ensures n <= |s|
    ensures n == 0 <==> c !in s
  {
    if |s| == 0 then 0 else CountChar(s[..|s| - 1], c) + (if s[|s| - 1] == c then 1 else 0)
  }

  /** The pieces `s` separated by `sep` joined back with `sep` between them. */
  function JoinWith(pieces: seq<string>, sep: char): string {
    if |pieces| == 0 then ""
    else if |pieces| == 1 then pieces[0]
    else JoinWith(pieces[..|pieces| - 1], sep) + [sep] + pieces[|pieces| - 1]
  }

  /** Cutting at every `sep`, keeping all empty pieces. */
  function SplitAll(s: string, sep: char): (pieces: seq<string>)
    ensures |pieces| == CountChar(s, sep) + 1
    ensures forall k | 0 <= k < |pieces| :: sep !in pieces[k]
  {
    if |s| == 0 then [""]
    else
      var init := SplitAll(s[..|s| - 1], sep);
      var c := s[|s| - 1];
      if c == sep then init + [""]
      else init[..|init| - 1] + [init[|init| - 1] + [c]]
  }

  function DropTrailingEmpty(pieces: seq<string>): (r: seq<string>)
    ensures |r| <= |pieces| && r == pieces[..|r|]
    ensures forall k | |r| <= k < |pieces| :: pieces[k] == ""
    ensures |r| > 0 ==> r[|r| - 1] != ""
  {
    if |pieces| > 0 && pieces[|pieces| - 1] == "" then DropTrailingEmpty(pieces[..|pieces| - 1])
    else pieces
  }

  /** `String.split` with a one-character separator and limit 0: when `sep`
      does not occur the result is `[s]` (so `""` gives `[""]`); otherwise `s`
      is cut at every `sep` and the trailing empty pieces are dropped. */
  function Split(s: string, sep: char): (pieces: seq<string>)
    ensures forall k | 0 <= k < |pieces| :: sep !in pieces[k]
    ensures sep !in s ==> pieces == [s]
    ensures sep in s && |pieces| > 0 ==> pieces[|pieces| - 1] != ""
  {
    if sep !in s then [s] else DropTrailingEmpty(SplitAll(s, sep))
  }

  /** `s` without its trailing run of `sep`. */
  function TrimTrailing(s: string, sep: char): (r: string)
    ensures |r| <= |s| && r == s[..|r|]
    ensures |r| > 0 ==> r[|r| - 1] != sep
  {
    if |s| > 0 && s[|s| - 1] == sep then TrimTrailing(s[..|s| - 1], sep) else s
  }

  lemma JoinAppendPiece(ps: seq<string>, piece: string, sep: char)
    requires |ps| > 0
    ensures JoinWith(ps + [piece], sep) == JoinWith(ps, sep) + [sep] + piece
  {
    assert (ps + [piece])[..|ps|] == ps;
  }

  lemma JoinExtendLast(ps: seq<string>, c: char, sep: char)
    requires |ps| > 0
    ensures JoinWith(ps[..|ps| - 1] + [ps[|ps| - 1] + [c]], sep) == JoinWith(ps, sep) + [c]
  {
    var m := |ps|;
    if m > 1 {
      JoinAppendPiece(ps[..m - 1], ps[m - 1] + [c], sep);
      assert ps[..m - 1] + [ps[m - 1]] == ps;
      JoinAppendPiece(ps[..m - 1], ps[m - 1], sep);
    }
  }

  lemma {:induction false} JoinSplitAll(s: string, sep: char)
    ensures JoinWith(SplitAll(s, sep), sep) == s
  {
    if |s| > 0 {
      var front := s[..|s| - 1];
      var c := s[|s| - 1];
      JoinSplitAll(front, sep);
      assert s == front + [c];
      if c == sep {
        JoinAppendPiece(SplitAll(front, sep), "", sep);
      } else {
        JoinExtendLast(SplitAll(front, sep), c, sep);
      }
    }
  }

  lemma {:induction false} JoinDropTrailing(pieces: seq<string>, sep: char)
    requires |pieces| > 0
    requires forall k | 0 <= k < |pieces| :: sep !in pieces[k]
    ensures JoinWith(DropTrailingEmpty(pieces), sep) == TrimTrailing(JoinWith(pieces, sep), sep)
  {
    var n := |pieces|;
    if pieces[n - 1] == "" {
      if n == 1 {
      } else {
        var init := pieces[..n - 1];
        JoinDropTrailing(init, sep);
        var j := JoinWith(init, sep);
        assert JoinWith(pieces, sep) == j + [sep];
        assert (j + [sep])[..|j|] == j;
      }
    } else {
      var j := JoinWith(pieces, sep);
      assert j[|j| - 1] == pieces[n - 1][|pieces[n - 1]| - 1];
    }
  }

  /** Joining the pieces of `split` with the separator gives back the input
      without its trailing separators: `split` loses nothing else. */
  lemma SplitJoin(s: string, sep: char)
    ensures JoinWith(Split(s, sep), sep) == TrimTrailing(s, sep)
  {
    if sep in s {
      JoinSplitAll(s, sep);
      JoinDropTrailing(SplitAll(s, sep), sep);
    } else {
      assert |s| > 0 ==> s[|s| - 1] != sep;
    }
  }
}

=== FILE: mean.dfy ===
/** `Mean.perform`: the average of the arguments, truncated toward zero to a
    `long`, and 0 for no arguments. */
module Mean {
  import opened JavaLong
  import opened Totals

  const Identity: int -> int := x => x

  /** The exact sum of the arguments. */
  function Sum(s: seq<int>): int {
    Total(s, Identity)
  }

  /** A quotient `q` is `sum / n` truncated toward zero, as Java's
      conversion of the average to a `long` rounds it. */
  predicate IsTruncatedQuotient(sum: int, n: int, q: int) {
    if sum >= 0 then q * n <= sum < (q + 1) * n
    else (q - 1) * n < sum <= q * n
  }

  lemma FactorBound(a: int, b: int, n: int)
    requires n > 0 && a * n < (b + 1) * n
    ensures a <= b
  {
  }

  /** Dividing by a positive count moves toward zero, never past it. */
  lemma QuotientWithin(a: int, n: int)
    requires n > 0
    ensures a >= 0 ==> 0 <= TruncDiv(a, n) <= a
    ensures a < 0 ==> a <= TruncDiv(a, n) <= 0
  {
    var q := TruncDiv(a, n);
    if a >= 0 {
      FactorBound(-1, q, n);
      ScaledAway(q, n);
    } else {
      FactorBound(q - 1, -1, n);
      ScaledAway(q, n);
    }
  }

  /** Multiplying by a positive count moves away from zero. */
  lemma ScaledAway(q: int, n: int)
    requires n > 0
    ensures q >= 0 ==> q <= q * n
    ensures q <= 0 ==> q * n <= q
  {
    assert q * n - q == q * (n - 1);
  }

  /** Arguments between `lo` and `hi` sum to between `lo` and `hi` times
      their count. */
  lemma SumBetween(args: seq<int>, lo: int, hi: int)
    requires forall i | 0 <= i < |args| :: lo <= args[i] <= hi
    ensures lo * |args| <= Sum(args) <= hi * |args|
  {
    TotalBetween(args, Identity, lo, hi);
  }

  /** A sum between `lo` and `hi` times the count has a truncated quotient
      between `lo` and `hi`. */
  lemma QuotientBetween(sum: int, n: int, lo: int, hi: int)
    requires n > 0 && lo * n <= sum <= hi * n
    ensures lo <= TruncDiv(sum, n) <= hi
  {
    var q := TruncDiv(sum, n);
    if sum >= 0 {
      FactorBound(q, hi, n);
      FactorBound(lo - 1, q, n);
    } else {
      FactorBound(q - 1, hi - 1, n);
      FactorBound(lo, q, n);
    }
  }

  /** Arguments between `lo` and `hi` have a truncated average between
      `lo` and `hi`. */
  lemma AverageBetween(args: seq<int>, lo: int, hi: int)
    requires |args| > 0
    requires forall i | 0 <= i < |args| :: lo <= args[i] <= hi
    ensures lo <= TruncDiv(Sum(args), |args|) <= hi
  {
    SumBetween(args, lo, hi);
    QuotientBetween(Sum(args), |args|, lo, hi);
  }

  /** `Mean.perform`, with the sum computed exactly. */
  function Perform(args: seq<Int64>): (r: Int64)
    ensures |args| == 0 ==> r == 0
    ensures |args| > 0 ==> IsTruncatedQuotient(Sum(args), |args|, r)
  {
    if |args| == 0 then 0
    else
      AverageBetween(args, MinLong, MaxLong);
      TruncDiv(Sum(args), |args|)
  }

  /** `Mean.perform` as the source computes it: the stream's sum is a `long`
      and wraps around before the division. */
  function PerformAsWritten(args: seq<Int64>): (r: Int64)
    ensures |args| == 0 ==> r == 0
    ensures |args| > 0 ==> IsTruncatedQuotient(Wrap64(Sum(args)), |args|, r)
  {
    if |args| == 0 then 0
    else
      var w := Wrap64(Sum(args));
      QuotientWithin(w, |args|);
      TruncDiv(w, |args|)
  }

  /** The truncated quotient is unique, so `Perform` is the truncated average of the exact sum. */
  lemma TruncatedQuotientUnique(sum: int, n: int, q: int, q': int)
    requires n > 0 && IsTruncatedQuotient(sum, n, q) && IsTruncatedQuotient(sum, n, q')
    ensures q == q'
  {
    if sum >= 0 {
      FactorBound(q, q', n);
      FactorBound(q', q, n);
    } else {
      FactorBound(q - 1, q' - 1, n);
      FactorBound(q' - 1, q - 1, n);
    }
  }

  /** The mean lies between the smallest and the largest argument. */
  lemma MeanBetween(args: seq<Int64>, lo: int, hi: int)
    requires |args| > 0
    requires forall i | 0 <= i < |args| :: lo <= args[i] <= hi
    ensures lo <= Perform(args) <= hi
  {
    AverageBetween(args, lo, hi);
  }

  /** The mean does not depend on the order of the arguments. */
  lemma OrderIndependent(a: seq<Int64>, b: seq<Int64>)
    requires multiset(a) == multiset(b)
    ensures Perform(a) == Perform(b)
  {
    TotalPermutation(a, b, Identity);
    assert |a| == |multiset(a)| == |multiset(b)| == |b|;
  }

  /** As written, the two versions agree whenever the sum fits a `long`. */
  lemma AsWrittenAgreesWithoutOverflow(args: seq<Int64>)
    requires MinLong <= Sum(args) <= MaxLong
    ensures PerformAsWritten(args) == Perform(args)
  {
  }

  /** The largest `long` and 1: the sum wraps to the smallest `long`, so the
      source answers -2^62 where the mean is 2^62. */
  lemma OverflowExample()
    ensures Perform([MaxLong, 1]) == 0x4000_0000_0000_0000
    ensures PerformAsWritten([MaxLong, 1]) == -0x4000_0000_0000_0000
  {
    assert [MaxLong, 1][1..] == [1];
    assert Total([1], Identity) == 1;
    assert Sum([MaxLong, 1]) == MaxLong + 1;
    assert Wrap64(MaxLong + 1) == MinLong;
  }
}

=== FILE: median.dfy ===
/** `Median.perform`: sort the arguments and take the middle element, or the
    mean of the two middle elements, truncated, when the count is even. */
module Median {
  import opened Wrappers
  import opened JavaLong
  import opened Totals
  import opened Sorting

  /** `(a + b) / 2` with Java's truncating division, computed exactly: it
      lies between `a` and `b`, so it is always a `long`. */
  function MidPoint(a: Int64, b: Int64): (r: Int64)
    ensures a <= b ==> a <= r <= b
    ensures b <= a ==> b <= r <= a
    ensures a + b >= 0 ==> 0 <= a + b - 2 * r <= 1
    ensures a + b < 0 ==> -1 <= a + b - 2 * r <= 0
  {
    TruncDiv(a + b, 2)
  }

  /** `(a + b) / 2` as the source writes it: the `long` sum wraps around
      before the division. */
  function MidPointAsWritten(a: Int64, b: Int64): (r: Int64)
    ensures MinLong <= a + b <= MaxLong ==> r == MidPoint(a, b)
  {
    TruncDiv(Wrap64(a + b), 2)
  }

  /** The sorted arguments are arguments, so they are `long`s too. */
  lemma SortedArguments(args: seq<Int64>)
    ensures forall i | 0 <= i < |Sort(args)| :: Sort(args)[i] in args
  {
    forall i | 0 <= i < |Sort(args)|
      ensures Sort(args)[i] in args
    {
      assert Sort(args)[i] in multiset(Sort(args));
    }
  }

  /** `Median.perform`, with the middle of an even count computed without
      overflow. An empty array makes the source read index -1 and throw;
      that is `None` here. */
  function Perform(args: seq<Int64>): (r: Option<Int64>)
    ensures r.None? <==> |args| == 0
    ensures r.Some? ==> exists i, j | 0 <= i < |args| && 0 <= j < |args| :: args[i] <= r.value <= args[j]
  {
    if |args| == 0 then None
    else
      var s := Sort(args);
      var m := |s| / 2;
      SortedArguments(args);
      assert s[m] in args;
      if |s| % 2 != 0 then Some(s[m] as Int64)
      else
        assert s[m - 1] in args;
        Some(MidPoint(s[m - 1], s[m]))
  }

  /** `Median.perform` as the source writes it: the two middle elements are
      added in `long` arithmetic, which can wrap around. */
  function PerformAsWritten(args: seq<Int64>): (r: Option<Int64>)
    ensures r.None? <==> |args| == 0
    ensures |args| % 2 == 1 ==> r == Perform(args)
  {
    if |args| == 0 then None
    else
      var s := Sort(args);
      var m := |s| / 2;
      SortedArguments(args);
      assert s[m] in args;
      if |s| % 2 != 0 then Some(s[m] as Int64)
      else
        assert s[m - 1] in args;
        Some(MidPointAsWritten(s[m - 1], s[m]))
  }

  /** On arguments already in order the median is read off directly. */
  lemma SortedMedian(args: seq<Int64>)
    requires Sorted(args) && |args| > 0
    ensures var m := |args| / 2;
            Perform(args) == if |args| % 2 != 0 then Some(args[m]) else Some(MidPoint(args[m - 1], args[m]))
  {
    SortedUnique(Sort(args), args);
  }

  /** With an odd count the median is the element of middle rank, whatever
      the order of the arguments. */
  lemma OddMedian(args: seq<Int64>, v: int)
    requires |args| % 2 == 1
    ensures Perform(args) == Some(v) <==> HasRank(args, |args| / 2, v)
  {
    SortRank(args, |args| / 2, v);
  }

  /** The elements of the two middle ranks sit in the middle of the sorted
      arguments. */
  lemma MiddleOfSorted(args: seq<Int64>, lo: int, hi: int)
    requires |args| > 0 && |args| % 2 == 0
    requires HasRank(args, |args| / 2 - 1, lo) && HasRank(args, |args| / 2, hi)
    ensures Sort(args)[|args| / 2 - 1] == lo && Sort(args)[|args| / 2] == hi
  {
    SortRank(args, |args| / 2 - 1, lo);
    SortRank(args, |args| / 2, hi);
  }

  /** With an even count the median is the truncated mean of the elements
      of the two middle ranks. */
  lemma EvenMedian(args: seq<Int64>, lo: int, hi: int)
    requires |args| > 0 && |args| % 2 == 0
    requires HasRank(args, |args| / 2 - 1, lo) && HasRank(args, |args| / 2, hi)
    ensures MinLong <= lo <= hi <= MaxLong
    ensures Perform(args) == Some(MidPoint(lo, hi))
  {
    RankedIsElement(args, |args| / 2 - 1, lo);
    RankedIsElement(args, |args| / 2, hi);
    MiddleOfSorted(args, lo, hi);
  }

  /** Every non-empty array has elements of the two middle ranks. */
  lemma MiddleRanksExist(args: seq<Int64>)
    requires |args| > 0 && |args| % 2 == 0
    ensures exists lo, hi | lo in args && hi in args :: HasRank(args, |args| / 2 - 1, lo) && HasRank(args, |args| / 2, hi)
  {
    var s := Sort(args);
    SortRank(args, |args| / 2 - 1, s[|args| / 2 - 1]);
    SortRank(args, |args| / 2, s[|args| / 2]);
    SortedArguments(args);
  }

  /** The median does not depend on the order of the arguments. */
  lemma OrderIndependent(a: seq<Int64>, b: seq<Int64>)
    requires multiset(a) == multiset(b)
    ensures Perform(a) == Perform(b)
  {
    SortPermutation(a, b);
  }

  /** As written, the two versions agree whenever the middle elements can
      be added without overflow, in particular when every argument lies
      within half the `long` range. */
  lemma AsWrittenAgreesWithoutOverflow(args: seq<Int64>)
    requires forall i | 0 <= i < |args| :: MinLong / 2 <= args[i] <= MaxLong / 2
    ensures PerformAsWritten(args) == Perform(args)
  {
    if |args| > 0 && |args| % 2 == 0 {
      var s := Sort(args);
      var m := |s| / 2;
      SortedArguments(args);
      assert s[m - 1] in args && s[m] in args;
    }
  }

  /** Two copies of the largest `long`: the sum wraps to -2, so the source
      answers -1 where the median is the largest `long` itself. */
  lemma OverflowExample()
    ensures Perform([MaxLong, MaxLong]) == Some(MaxLong)
    ensures PerformAsWritten([MaxLong, MaxLong]) == Some(-1)
  {
    var args: seq<Int64> := [MaxLong, MaxLong];
    SortedUnique(Sort(args), args);
    assert Wrap64(MaxLong + MaxLong) == -2;
  }
}

=== FILE: parser_examples.dfy ===
/** Worked examples of `tokenParse` on the token spans the scanner produces
    for the inputs in the parser's documentation and tests. */
module ParserExamples {
  import opened Wrappers
  import opened JavaLong
  import opened JavaString
  import opened Syntax
  import opened ComplexParser
  import opened ParserProperties
  import opened ParserRules

  function Const(text: string): Token {
    Token(CONST, text, "")
  }

  function Sym(name: string): Token {
    Token(OP, name, "")
  }

  /** A span holding one constant token that `Long.parseLong` accepts
      parses to that constant. */
  lemma OneConstant(scan: Scanner, x: string, fuel: nat)
    requires ParseLong(x).Some?
    ensures TokenParse(scan, [Const(x)], fuel) == Success(Some(Constant(ParseLong(x).value)))
  {
    ParsedLongIsNoOperator(x);
    ConstantRule(scan, x, "", fuel);
  }

  lemma EmptySpan(scan: Scanner, fuel: nat)
    ensures TokenParse(scan, [], fuel) == Success(Some(Empty))
  {
    LeafRule(scan, [], fuel);
  }

  lemma ConstantNamesNoOperator(x: string)
    requires ParseLong(x).Some?
    ensures forall l | 0 <= l < |Operators| :: !Mentions([Const(x)], Operators[l])
  {
    ParsedLongIsNoOperator(x);
    forall l | 0 <= l < |Operators|
      ensures !Mentions([Const(x)], Operators[l])
    {
      SingleTokenMentions(Const(x), Operators[l]);
    }
  }

  /** A span that splits at its dominant operator into two segments that
      parse gives the two-operand node over their parses. */
  lemma TwoOperandNode(scan: Scanner, ts: seq<Token>, op: string, s0: seq<Token>, s1: seq<Token>,
                       o0: Option<Expr>, o1: Option<Expr>, fuel: nat)
    requires DominantOp(ts) == Some(op) && SplitOn(ts, op) == [s0, s1]
    requires TokenParse(scan, s0, fuel) == Success(o0) && TokenParse(scan, s1, fuel) == Success(o1)
    ensures TokenParse(scan, ts, fuel) == Success(Some(Op(op, [o0, o1])))
  {
    PairParses(scan, s0, s1, o0, o1, fuel);
    OperatorNode(scan, ts, op, [o0, o1], fuel);
  }

  lemma PairParses(scan: Scanner, s0: seq<Token>, s1: seq<Token>, o0: Option<Expr>, o1: Option<Expr>, fuel: nat)
    requires TokenParse(scan, s0, fuel) == Success(o0) && TokenParse(scan, s1, fuel) == Success(o1)
    ensures forall k | 0 <= k < 2 :: TokenParse(scan, [s0, s1][k], fuel) == Success([o0, o1][k])
  {
  }

  // ---------------------------------------------------------------------
  // x * y

  function ProductSpan(x: string, y: string): seq<Token> {
    [Const(x), Sym("*"), Const(y)]
  }

  lemma ProductDominant(x: string, y: string)
    requires ParseLong(x).Some? && ParseLong(y).Some?
    ensures DominantOp(ProductSpan(x, y)) == Some("*")
  {
    var ts := ProductSpan(x, y);
    ParsedLongIsNoOperator(x);
    ParsedLongIsNoOperator(y);
    assert ts[1].name == Operators[3];
    DominantOpIs(ts, 3);
  }

  lemma ProductSplit(x: string, y: string)
    requires ParseLong(x).Some? && ParseLong(y).Some?
    ensures SplitOn(ProductSpan(x, y), "*") == [[Const(x)], [Const(y)]]
  {
    ConstantNamesNoOperator(x);
    ConstantNamesNoOperator(y);
    assert Operators[3] == "*";
    SplitAfterPlainSpan([Const(x)], Sym("*"), [Const(y)], "*");
    SplitOfPlainSpan([Const(y)], "*");
    assert [Const(x)] + [Sym("*")] + [Const(y)] == ProductSpan(x, y);
  }

  /** Two constants around `*` make one `*` node over both constants. */
  lemma ProductShape(scan: Scanner, x: string, y: string, fuel: nat)
    requires ParseLong(x).Some? && ParseLong(y).Some?
    ensures TokenParse(scan, ProductSpan(x, y), fuel) ==
              Success(Some(Op("*", [Some(Constant(ParseLong(x).value)), Some(Constant(ParseLong(y).value))])))
  {
    ProductDominant(x, y);
    ProductSplit(x, y);
    OneConstant(scan, x, fuel);
    OneConstant(scan, y, fuel);
    TwoOperandNode(scan, ProductSpan(x, y), "*", [Const(x)], [Const(y)],
                   Some(Constant(ParseLong(x).value)), Some(Constant(ParseLong(y).value)), fuel);
  }

  // ---------------------------------------------------------------------
  // a + b + x * y + e

  function SumSpan(a: string, b: string, x: string, y: string, e: string): seq<Token> {
    [Const(a), Sym("+"), Const(b), Sym("+")] + ProductSpan(x, y) + [Sym("+"), Const(e)]
  }

  lemma SumSplit(a: string, b: string, x: string, y: string, e: string)
    requires ParseLong(a).Some? && ParseLong(b).Some? && ParseLong(x).Some?
    requires ParseLong(y).Some? && ParseLong(e).Some?
    ensures SplitOn(SumSpan(a, b, x, y, e), "+") ==
              [[Const(a)], [Const(b)], ProductSpan(x, y), [Const(e)]]
  {
    var product := ProductSpan(x, y);
    assert Operators[5] == "+";
    ConstantNamesNoOperator(a);
    ConstantNamesNoOperator(b);
    ConstantNamesNoOperator(e);
    ParsedLongIsNoOperator(x);
    ParsedLongIsNoOperator(y);
    assert !Mentions(product, "+");
    SplitFour([Const(a)], [Const(b)], product, [Const(e)], Sym("+"), "+");
    assert SumSpan(a, b, x, y, e) == [Const(a)] + [Sym("+")] + ([Const(b)] + [Sym("+")] + (product + [Sym("+")] + [Const(e)]));
  }

  /** Two spans free of `op` joined by a token named `op` split back into
      those two spans. */
  lemma SplitTwo(p0: seq<Token>, p1: seq<Token>, sep: Token, op: string)
    requires sep.name == op
    requires !Mentions(p0, op) && !Mentions(p1, op)
    ensures SplitOn(p0 + [sep] + p1, op) == [p0, p1]
  {
    SplitOfPlainSpan(p1, op);
    SplitAfterPlainSpan(p0, sep, p1, op);
  }

  /** A span free of `op` and a token named `op` put in front of `rest`
      add that span as the first segment. */
  lemma SplitCons(p: seq<Token>, sep: Token, rest: seq<Token>, op: string, segs: seq<seq<Token>>)
    requires sep.name == op && !Mentions(p, op)
    requires SplitOn(rest, op) == segs
    ensures SplitOn(p + [sep] + rest, op) == [p] + segs
  {
    SplitAfterPlainSpan(p, sep, rest, op);
  }

  lemma ConsThree(p1: seq<Token>, p2: seq<Token>, p3: seq<Token>)
    ensures [p1] + [p2, p3] == [p1, p2, p3]
  {
  }

  lemma ConsFour(p0: seq<Token>, p1: seq<Token>, p2: seq<Token>, p3: seq<Token>)
    ensures [p0] + [p1, p2, p3] == [p0, p1, p2, p3]
  {
  }

  /** Four spans free of `op` joined by tokens named `op` split back into
      those four spans. */
  lemma SplitFour(p0: seq<Token>, p1: seq<Token>, p2: seq<Token>, p3: seq<Token>, sep: Token, op: string)
    requires sep.name == op
    requires !Mentions(p0, op) && !Mentions(p1, op) && !Mentions(p2, op) && !Mentions(p3, op)
    ensures SplitOn(p0 + [sep] + (p1 + [sep] + (p2 + [sep] + p3)), op) == [p0, p1, p2, p3]
  {
    SplitTwo(p2, p3, sep, op);
    SplitCons(p1, sep, p2 + [sep] + p3, op, [p2, p3]);
    ConsThree(p1, p2, p3);
    SplitCons(p0, sep, p1 + [sep] + (p2 + [sep] + p3), op, [p1, p2, p3]);
    ConsFour(p0, p1, p2, p3);
  }


  lemma SumDominant(a: string, b: string, x: string, y: string, e: string)
    requires ParseLong(a).Some? && ParseLong(b).Some? && ParseLong(x).Some?
    requires ParseLong(y).Some? && ParseLong(e).Some?
    ensures DominantOp(SumSpan(a, b, x, y, e)) == Some("+")
  {
    var ts := SumSpan(a, b, x, y, e);
    ParsedLongIsNoOperator(a);
    ParsedLongIsNoOperator(b);
    ParsedLongIsNoOperator(x);
    ParsedLongIsNoOperator(y);
    ParsedLongIsNoOperator(e);
    assert ts[1].name == Operators[5];
    assert !Mentions(ts, Operators[6]);
    DominantOpIs(ts, 5);
  }

  /** `a + b + x * y + e` splits at `+` into four operand spans, not a
      chain of binary ones; by `OperatorRule` it is one four-operand `+`
      node whose third operand is the `*` node of `ProductShape`. */
  lemma SumShape(a: string, b: string, x: string, y: string, e: string)
    requires ParseLong(a).Some? && ParseLong(b).Some? && ParseLong(x).Some?
    requires ParseLong(y).Some? && ParseLong(e).Some?
    ensures DominantOp(SumSpan(a, b, x, y, e)) == Some("+")
    ensures SplitOn(SumSpan(a, b, x, y, e), "+") == [[Const(a)], [Const(b)], ProductSpan(x, y), [Const(e)]]
    ensures Count(SumSpan(a, b, x, y, e), "+") == 3
  {
    SumDominant(a, b, x, y, e);
    SumSplit(a, b, x, y, e);
  }

  lemma SmallNumerals()
    ensures ParseLong("3") == Some(3) && ParseLong("4") == Some(4) && ParseLong("5") == Some(5)
    ensures ParseLong("7") == Some(7) && ParseLong("12") == Some(12) && ParseLong("42") == Some(42)
  {
    assert ShowNat(1) == "1";
    assert ShowNat(4) == "4";
    ParseShowLong(3);
    ParseShowLong(4);
    ParseShowLong(5);
    ParseShowLong(7);
    ParseShowLong(12);
    ParseShowLong(42);
  }

  /** The documented example `4 + 5 + 7 * 12 + 3`: four operands, the
      constants 4, 5 and 3 and the product of 7 and 12. */
  lemma SumExample(scan: Scanner, fuel: nat)
    ensures DominantOp(SumSpan("4", "5", "7", "12", "3")) == Some("+")
    ensures SplitOn(SumSpan("4", "5", "7", "12", "3"), "+") ==
              [[Const("4")], [Const("5")], ProductSpan("7", "12"), [Const("3")]]
    ensures TokenParse(scan, [Const("4")], fuel) == Success(Some(Constant(4)))
    ensures TokenParse(scan, [Const("5")], fuel) == Success(Some(Constant(5)))
    ensures TokenParse(scan, ProductSpan("7", "12"), fuel) ==
              Success(Some(Op("*", [Some(Constant(7)), Some(Constant(12))])))
    ensures TokenParse(scan, [Const("3")], fuel) == Success(Some(Constant(3)))
  {
    SmallNumerals();
    SumShape("4", "5", "7", "12", "3");
    OneConstant(scan, "4", fuel);
    OneConstant(scan, "5", fuel);
    OneConstant(scan, "3", fuel);
    ProductShape(scan, "7", "12", fuel);
  }

  /** Four spans that a split yields, each parsed on its own, give the
      four-operand node. */
  lemma FourOperandNode(scan: Scanner, ts: seq<Token>, op: string, spans: seq<seq<Token>>,
                        operands: seq<Option<Expr>>, fuel: nat)
    requires DominantOp(ts) == Some(op) && SplitOn(ts, op) == spans
    requires FourParse(scan, spans, operands, fuel)
    ensures TokenParse(scan, ts, fuel) == Success(Some(Op(op, operands)))
  {
    FourParses(scan, spans, operands, fuel);
    OperatorNode(scan, ts, op, operands, fuel);
  }

  /** Four spans parse to four given operands, one by one. */
  predicate FourParse(scan: Scanner, spans: seq<seq<Token>>, operands: seq<Option<Expr>>, fuel: nat) {
    && |spans| == 4 && |operands| == 4
    && TokenParse(scan, spans[0], fuel) == Success(operands[0])
    && TokenParse(scan, spans[1], fuel) == Success(operands[1])
    && TokenParse(scan, spans[2], fuel) == Success(operands[2])
    && TokenParse(scan, spans[3], fuel) == Success(operands[3])
  }

  lemma FourParses(scan: Scanner, spans: seq<seq<Token>>, operands: seq<Option<Expr>>, fuel: nat)
    requires FourParse(scan, spans, operands, fuel)
    ensures |spans| == 4 && |operands| == 4
    ensures forall k | 0 <= k < 4 :: TokenParse(scan, spans[k], fuel) == Success(operands[k])
  {
    forall k | 0 <= k < 4
      ensures TokenParse(scan, spans[k], fuel) == Success(operands[k])
    {
      if k == 0 {
      } else if k == 1 {
      } else if k == 2 {
      } else {
        assert k == 3;
      }
    }
  }

  /** `a + b + x * y + e` over valid constants is a single `+` node over
      four operands, the third being the `*` node of `x` and `y`, not a
      chain of binary nodes. */
  lemma SumTreeShape(scan: Scanner, a: string, b: string, x: string, y: string, e: string, fuel: nat)
    requires ParseLong(a).Some? && ParseLong(b).Some? && ParseLong(x).Some?
    requires ParseLong(y).Some? && ParseLong(e).Some?
    ensures TokenParse(scan, SumSpan(a, b, x, y, e), fuel) ==
              Success(Some(Op("+", [Some(Constant(ParseLong(a).value)), Some(Constant(ParseLong(b).value)),
                                    Some(Op("*", [Some(Constant(ParseLong(x).value)), Some(Constant(ParseLong(y).value))])),
                                    Some(Constant(ParseLong(e).value))])))
  {
    SumShape(a, b, x, y, e);
    OneConstant(scan, a, fuel);
    OneConstant(scan, b, fuel);
    OneConstant(scan, e, fuel);
    ProductShape(scan, x, y, fuel);
    FourOperandNode(scan, SumSpan(a, b, x, y, e), "+",
                    [[Const(a)], [Const(b)], ProductSpan(x, y), [Const(e)]],
                    [Some(Constant(ParseLong(a).value)), Some(Constant(ParseLong(b).value)),
                     Some(Op("*", [Some(Constant(ParseLong(x).value)), Some(Constant(ParseLong(y).value))])),
                     Some(Constant(ParseLong(e).value))], fuel);
  }

  /** The documented example as one tree: `4 + 5 + 7 * 12 + 3` is a single
      `+` node over 4, 5, the `*` node of 7 and 12, and 3. */
  lemma SumTree(scan: Scanner, fuel: nat)
    ensures TokenParse(scan, SumSpan("4", "5", "7", "12", "3"), fuel) ==
              Success(Some(Op("+", [Some(Constant(4)), Some(Constant(5)),
                                    Some(Op("*", [Some(Constant(7)), Some(Constant(12))])),
                                    Some(Constant(3))])))
  {
    SmallNumerals();
    SumTreeShape(scan, "4", "5", "7", "12", "3", fuel);
  }

  // ---------------------------------------------------------------------
  // -x

  function NegationSpan(x: string): seq<Token> {
    [Sym("-"), Const(x)]
  }

  lemma NegationDominant(x: string)
    requires ParseLong(x).Some?
    ensures DominantOp(NegationSpan(x)) == Some("-")
  {
    var ts := NegationSpan(x);
    ParsedLongIsNoOperator(x);
    assert ts[0].name == Operators[4];
    DominantOpIs(ts, 4);
  }

  lemma NegationSplit(x: string)
    requires ParseLong(x).Some?
    ensures SplitOn(NegationSpan(x), "-") == [[], [Const(x)]]
  {
    ConstantNamesNoOperator(x);
    assert Operators[4] == "-";
    SplitAfterPlainSpan([], Sym("-"), [Const(x)], "-");
    SplitOfPlainSpan([Const(x)], "-");
    assert [] + [Sym("-")] + [Const(x)] == NegationSpan(x);
  }

  /** A minus sign before a constant (`-42` scans this way): the empty span
      before the sign becomes `Empty`, so the result is a `-` node and not
      a negative constant. */
  lemma NegationShape(scan: Scanner, x: string, fuel: nat)
    requires ParseLong(x).Some?
    ensures TokenParse(scan, NegationSpan(x), fuel) ==
              Success(Some(Op("-", [Some(Empty), Some(Constant(ParseLong(x).value))])))
  {
    NegationDominant(x);
    NegationSplit(x);
    OneConstant(scan, x, fuel);
    EmptySpan(scan, fuel);
    TwoOperandNode(scan, NegationSpan(x), "-", [], [Const(x)], Some(Empty), Some(Constant(ParseLong(x).value)), fuel);
  }

  lemma NegativeExample(scan: Scanner, fuel: nat)
    ensures TokenParse(scan, NegationSpan("42"), fuel) ==
              Success(Some(Op("-", [Some(Empty), Some(Constant(42))])))
  {
    SmallNumerals();
    NegationShape(scan, "42", fuel);
  }

  // ---------------------------------------------------------------------
  // MEAN() and MEDIAN(,)

  /** The empty text is one piece, and it parses to the empty expression. */
  lemma EmptyTextPiece(scan: Scanner, depth: nat)
    requires scan("") == Success([])
    ensures Split("", ',') == [""]
    ensures TryParse(scan, "", depth) == Success(Some(Empty))
  {
    assert Strip("") == "";
    EmptySpan(scan, depth);
  }

  /** `MEAN()` has one operand, the empty expression: Java's split of the
      empty text is one empty piece. */
  lemma EmptyMeanExample(scan: Scanner, depth: nat)
    requires scan("") == Success([])
    ensures TokenParse(scan, [Token(FUNC, "MEAN", "")], depth + 1) == Success(Some(Op("MEAN", [Some(Empty)])))
  {
    var ts := [Token(FUNC, "MEAN", "")];
    NoOperatorNamed(ts);
    assert FirstIs(ts, 0, IsAggregate);
    EmptyTextPiece(scan, depth);
    AggregateCase(scan, ts, 0, depth + 1);
    AggregateParseResult(scan, ts[0], depth + 1);
    TryParseAllSuccess(scan, [""], depth);
    var ps := TryParseAll(scan, [""], depth);
    assert ps.value == [Some(Empty)];
  }

  /** A lone comma splits into no pieces at all (trailing empty pieces are
      dropped), so `MEDIAN(,)` has no operands. */
  lemma CommaOnlyMedianExample(scan: Scanner, depth: nat)
    ensures TokenParse(scan, [Token(FUNC, "MEDIAN", ",")], depth + 1) == Success(Some(Op("MEDIAN", [])))
  {
    var ts := [Token(FUNC, "MEDIAN", ",")];
    NoOperatorNamed(ts);
    assert FirstIs(ts, 0, IsAggregate);
    assert ',' in ",";
    assert SplitAll(",", ',') == ["", ""];
    assert Split(",", ',') == [];
    AggregateRule(scan, ts, 0, depth);
  }
}

=== FILE: parser_properties.dfy ===
/** Properties of `ComplexParser.tokenParse` and `parse`: which operator a
    span is split on, what the split produces, and what each rule yields. */
module ParserProperties {
  import opened Wrappers
  import opened JavaLong
  import opened JavaString
  import opened Syntax
  import opened ComplexParser

  // ---------------------------------------------------------------------
  // Choice of the dominant operator

  /** Of two operator symbols present in a span, the one later in
      `= < / * - + ,` wins: the effective split order is
      `, > + > - > * > / > < > =`. */
  lemma LaterOperatorWins(ts: seq<Token>, i: nat, j: nat)
    requires i < j < |Operators|
    requires Mentions(ts, Operators[i]) && Mentions(ts, Operators[j])
    ensures DominantOp(ts).Some? && DominantOp(ts) != Some(Operators[i])
  {
    var r := DominantOp(ts);
    var w :| 0 <= w < |Operators| && r.value == Operators[w]
             && forall l | w < l < |Operators| :: !Mentions(ts, Operators[l]);
    assert j <= w;
    OperatorsDistinct(i, w);
  }

  /** A scan that meets no mentioned symbol keeps its starting choice. */
  lemma ScanWithoutMention(ts: seq<Token>, ops: seq<string>)
    requires forall k | 0 <= k < |ops| :: !Mentions(ts, ops[k])
    ensures ChooseOp(ts, ops, None) == None
  {
  }

  /** A scan ends with the last symbol of `ops` that the span mentions. */
  lemma ScanEndsWithLastMentioned(ts: seq<Token>, ops: seq<string>, j: int)
    requires 0 <= j < |ops| && Mentions(ts, ops[j])
    requires forall l | j < l < |ops| :: !Mentions(ts, ops[l])
    ensures ChooseOp(ts, ops, None) == Some(ops[j])
  {
    var r := ChooseOp(ts, ops, None);
    var w :| 0 <= w < |ops| && r == Some(ops[w]) && Mentions(ts, ops[w])
             && forall l | w < l < |ops| :: !Mentions(ts, ops[l]);
    assert w == j;
  }

  /** The source's loop over `= < / * - + ,`, which keeps the last symbol
      some token is named after, ends with the dominant operator. */
  lemma DominantOpIsScan(ts: seq<Token>)
    ensures ChooseOp(ts, Operators, None) == DominantOp(ts)
  {
    var r := DominantOp(ts);
    if r.Some? {
      var w :| 0 <= w < |Operators| && r.value == Operators[w] && Mentions(ts, Operators[w])
               && forall l | w < l < |Operators| :: !Mentions(ts, Operators[l]);
      ScanEndsWithLastMentioned(ts, Operators, w);
    } else {
      ScanWithoutMention(ts, Operators);
    }
  }

  lemma OperatorsDistinct(a: nat, b: nat)
    requires a < b < |Operators|
    ensures Operators[a] != Operators[b]
  {
    assert Operators[a][0] != Operators[b][0];
  }

  /** A comma anywhere in the span makes it a comma split. */
  lemma CommaSplitsFirst(ts: seq<Token>)
    requires Mentions(ts, ",")
    ensures DominantOp(ts) == Some(",")
  {
    assert Operators[6] == ",";
    var r := DominantOp(ts);
    var w :| 0 <= w < |Operators| && r.value == Operators[w]
             && forall l | w < l < |Operators| :: !Mentions(ts, Operators[l]);
    assert w == 6;
  }

  /** Conversely, the last operator of the list that the span mentions is
      the one chosen. */
  lemma DominantOpIs(ts: seq<Token>, j: nat)
    requires j < |Operators| && Mentions(ts, Operators[j])
    requires forall l | j < l < |Operators| :: !Mentions(ts, Operators[l])
    ensures DominantOp(ts) == Some(Operators[j])
  {
    var r := DominantOp(ts);
    var w :| 0 <= w < |Operators| && r.value == Operators[w]
             && forall l | w < l < |Operators| :: !Mentions(ts, Operators[l]);
    assert w == j;
  }

  /** The operator chosen is one the span mentions, and it is the only
      choice the order allows. */
  lemma DominantIsMentioned(ts: seq<Token>, op: string)
    requires DominantOp(ts) == Some(op)
    ensures op in Operators && Mentions(ts, op)
    ensures forall l | 0 <= l < |Operators| && Mentions(ts, Operators[l]) ::
              exists w | l <= w < |Operators| :: op == Operators[w]
  {
  }

  // ---------------------------------------------------------------------
  // Splitting at every occurrence

  lemma {:induction false} SplitJoinHead(t: Token, ts: seq<Token>, op: string)
    requires t.name != op
    ensures var rest := SplitOn(ts, op);
            SplitOn([t] + ts, op) == [[t] + rest[0]] + rest[1..]
  {
    assert ([t] + ts)[1..] == ts;
  }

  lemma JoinPrepend(t: Token, segs: seq<seq<Token>>, seps: seq<Token>)
    requires |segs| == |seps| + 1
    ensures Join([[t] + segs[0]] + segs[1..], seps) == [t] + Join(segs, seps)
  {
    var segs' := [[t] + segs[0]] + segs[1..];
    if |seps| > 0 {
      assert segs'[1..] == segs[1..];
    }
  }

  lemma JoinLeadingSeparator(t: Token, segs: seq<seq<Token>>, seps: seq<Token>)
    requires |segs| == |seps| + 1
    ensures Join([[]] + segs, [t] + seps) == [t] + Join(segs, seps)
  {
    assert ([[]] + segs)[1..] == segs;
    assert ([t] + seps)[1..] == seps;
  }

  /** Putting the separators back between the segments gives the span:
      the split loses and reorders nothing. */
  lemma {:induction false} SplitJoin(ts: seq<Token>, op: string)
    ensures Join(SplitOn(ts, op), Separators(ts, op)) == ts
    decreases |ts|
  {
    if |ts| > 0 {
      var rest := SplitOn(ts[1..], op);
      var seps := Separators(ts[1..], op);
      SplitJoin(ts[1..], op);
      if ts[0].name == op {
        JoinLeadingSeparator(ts[0], rest, seps);
      } else {
        JoinPrepend(ts[0], rest, seps);
      }
      assert ts == [ts[0]] + ts[1..];
    }
  }

  lemma PlainTail(a: seq<Token>, op: string)
    requires |a| > 0 && !Mentions(a, op)
    ensures !Mentions(a[1..], op)
  {
    forall i | 0 <= i < |a[1..]|
      ensures a[1..][i].name != op
    {
      assert a[1..][i] == a[i + 1];
    }
  }

  lemma {:induction false} SplitOfPlainSpan(a: seq<Token>, op: string)
    requires !Mentions(a, op)
    ensures SplitOn(a, op) == [a]
    decreases |a|
  {
    if |a| > 0 {
      PlainTail(a, op);
      SplitOfPlainSpan(a[1..], op);
      assert a == [a[0]] + a[1..];
    }
  }

  lemma {:induction false} SplitAfterPlainSpan(a: seq<Token>, sep: Token, b: seq<Token>, op: string)
    requires !Mentions(a, op) && sep.name == op
    ensures SplitOn(a + [sep] + b, op) == [a] + SplitOn(b, op)
    decreases |a|
  {
    if |a| == 0 {
      assert a + [sep] + b == [sep] + b;
      assert ([sep] + b)[1..] == b;
    } else {
      var tail := a[1..];
      PlainTail(a, op);
      var after := tail + [sep] + b;
      SplitAfterPlainSpan(tail, sep, b, op);
      assert a + [sep] + b == [a[0]] + after;
      SplitJoinHead(a[0], after, op);
      assert [a[0]] + tail == a;
      assert ([a] + SplitOn(b, op))[1..] == SplitOn(b, op);
    }
  }

  /** The split is the only way to cut the span into segments free of `op`
      at tokens named `op`. */
  lemma {:induction false} SplitUnique(ts: seq<Token>, op: string, segs: seq<seq<Token>>, seps: seq<Token>)
    requires |segs| == |seps| + 1
    requires forall k | 0 <= k < |segs| :: !Mentions(segs[k], op)
    requires forall k | 0 <= k < |seps| :: seps[k].name == op
    requires Join(segs, seps) == ts
    ensures SplitOn(ts, op) == segs
    decreases |seps|
  {
    if |seps| == 0 {
      SplitOfPlainSpan(segs[0], op);
    } else {
      var rest := Join(segs[1..], seps[1..]);
      SplitUnique(rest, op, segs[1..], seps[1..]);
      SplitAfterPlainSpan(segs[0], seps[0], rest, op);
      assert segs == [segs[0]] + segs[1..];
    }
  }

  // ---------------------------------------------------------------------
  // The operator rule

  /** `ParseSpans` succeeds exactly when every span parses, and then its
      values are the spans' parses, in order. */
  lemma ParseSpansSuccess(scan: Scanner, spans: seq<seq<Token>>, fuel: nat, bound: nat)
    requires forall k | 0 <= k < |spans| :: |spans[k]| < bound
    ensures var r := ParseSpans(scan, spans, fuel, bound);
            && (r.Success? <==> forall k | 0 <= k < |spans| :: TokenParse(scan, spans[k], fuel).Success?)
            && (r.Success? ==> forall k | 0 <= k < |spans| :: TokenParse(scan, spans[k], fuel) == Success(r.value[k]))
  {
    var rs := seq(|spans|, k requires 0 <= k < |spans| => TokenParse(scan, spans[k], fuel));
    assert ParseSpans(scan, spans, fuel, bound) == Collect(rs);
    forall k | 0 <= k < |spans|
      ensures rs[k] == TokenParse(scan, spans[k], fuel)
    {
    }
  }

  /** Spans that parse to given operands collect into exactly those
      operands. */
  lemma ParseSpansOf(scan: Scanner, spans: seq<seq<Token>>, fuel: nat, bound: nat, operands: seq<Option<Expr>>)
    requires forall k | 0 <= k < |spans| :: |spans[k]| < bound
    requires |operands| == |spans|
    requires forall k | 0 <= k < |spans| :: TokenParse(scan, spans[k], fuel) == Success(operands[k])
    ensures ParseSpans(scan, spans, fuel, bound) == Success(operands)
  {
    ParseSpansSuccess(scan, spans, fuel, bound);
    var r := ParseSpans(scan, spans, fuel, bound);
    assert r.value == operands;
  }

  /** When `ParseSpans` fails, its error is that of the first span that
      does not parse. */
  lemma ParseSpansFailure(scan: Scanner, spans: seq<seq<Token>>, fuel: nat, bound: nat)
    requires forall k | 0 <= k < |spans| :: |spans[k]| < bound
    requires ParseSpans(scan, spans, fuel, bound).Failure?
    ensures exists k | 0 <= k < |spans| ::
              && TokenParse(scan, spans[k], fuel) == Failure(ParseSpans(scan, spans, fuel, bound).error)
              && forall j | 0 <= j < k :: TokenParse(scan, spans[j], fuel).Success?
  {
    var rs := seq(|spans|, k requires 0 <= k < |spans| => TokenParse(scan, spans[k], fuel));
    var r := ParseSpans(scan, spans, fuel, bound);
    assert r == Collect(rs);
    var k :| 0 <= k < |rs| && rs[k] == Failure(r.error) && forall j | 0 <= j < k :: rs[j].Success?;
    assert rs[k] == TokenParse(scan, spans[k], fuel);
    forall j | 0 <= j < k
      ensures TokenParse(scan, spans[j], fuel).Success?
    {
      assert rs[j] == TokenParse(scan, spans[j], fuel);
    }
  }

  lemma SplitCase(scan: Scanner, ts: seq<Token>, op: string, fuel: nat)
    requires DominantOp(ts) == Some(op)
    ensures op in Operators && Mentions(ts, op)
    ensures TokenParse(scan, ts, fuel) == SplitParse(scan, ts, op, fuel)
  {
    DominantIsMentioned(ts, op);
  }

  lemma SplitParseResult(scan: Scanner, ts: seq<Token>, op: string, fuel: nat)
    requires op in Operators && Mentions(ts, op)
    ensures var ps := ParseSpans(scan, SplitOn(ts, op), fuel, |ts|);
            SplitParse(scan, ts, op, fuel) == if ps.Success? then Success(Some(Op(op, ps.value))) else Failure(ps.error)
  {
  }

  /** The operator rule: with `op` the dominant operator, the span parses
      exactly when every segment between its `op` tokens parses, and then to
      one `op` node with an operand per segment, in order, each the parse of
      that segment. */
  lemma OperatorRule(scan: Scanner, ts: seq<Token>, op: string, fuel: nat)
    requires DominantOp(ts) == Some(op)
    ensures var segs := SplitOn(ts, op);
            var r := TokenParse(scan, ts, fuel);
            && (r.Success? <==> forall k | 0 <= k < |segs| :: TokenParse(scan, segs[k], fuel).Success?)
            && (r.Success? ==>
                  && r.value.Some? && r.value.value.Op? && r.value.value.name == op
                  && |r.value.value.args| == |segs| == Count(ts, op) + 1
                  && forall k | 0 <= k < |segs| :: TokenParse(scan, segs[k], fuel) == Success(r.value.value.args[k]))
  {
    SplitCase(scan, ts, op, fuel);
    SplitParseResult(scan, ts, op, fuel);
    ParseSpansSuccess(scan, SplitOn(ts, op), fuel, |ts|);
  }

  /** When the operator rule fails, the error is that of the first segment
      that does not parse. */
  lemma OperatorRuleFailure(scan: Scanner, ts: seq<Token>, op: string, fuel: nat)
    requires DominantOp(ts) == Some(op)
    requires TokenParse(scan, ts, fuel).Failure?
    ensures var segs := SplitOn(ts, op);
            exists k | 0 <= k < |segs| ::
              && TokenParse(scan, segs[k], fuel) == Failure(TokenParse(scan, ts, fuel).error)
              && forall j | 0 <= j < k :: TokenParse(scan, segs[j], fuel).Success?
  {
    SplitCase(scan, ts, op, fuel);
    SplitParseResult(scan, ts, op, fuel);
    ParseSpansFailure(scan, SplitOn(ts, op), fuel, |ts|);
  }

  /** The operator rule read the other way: a span whose segments parse
      to given operands parses to the `op` node over exactly those
      operands. */
  lemma OperatorNode(scan: Scanner, ts: seq<Token>, op: string, operands: seq<Option<Expr>>, fuel: nat)
    requires DominantOp(ts) == Some(op)
    requires |operands| == |SplitOn(ts, op)|
    requires forall k | 0 <= k < |operands| :: TokenParse(scan, SplitOn(ts, op)[k], fuel) == Success(operands[k])
    ensures TokenParse(scan, ts, fuel) == Success(Some(Op(op, operands)))
  {
    SplitCase(scan, ts, op, fuel);
    SplitParseResult(scan, ts, op, fuel);
    ParseSpansOf(scan, SplitOn(ts, op), fuel, |ts|, operands);
  }
}

=== FILE: parser_rules.dfy ===
/** The rules of `tokenParse` after the operator split — parentheses,
    MEAN/MEDIAN, empty span, constants, references, no expression — and
    the whitespace behaviour of `tryParse` and `parse`. */
module ParserRules {
  import opened Wrappers
  import opened JavaLong
  import opened JavaString
  import opened Syntax
  import opened ComplexParser

  /** No token of the span is a plain parenthesis or an aggregate. */
  predicate NoGroupOrAggregate(ts: seq<Token>) {
    forall k | 0 <= k < |ts| :: !IsGroup(ts[k]) && !IsAggregate(ts[k])
  }

  // ---------------------------------------------------------------------
  // Parentheses

  /** The parenthesis rule: with no operator in the span, the first plain
      parenthesis token decides the result. Its contents are scanned as
      they are (not stripped) and parsed one level deeper; the parse is
      wrapped in a one-operand node named `""`. */
  lemma GroupRule(scan: Scanner, ts: seq<Token>, g: int, fuel: nat)
    requires DominantOp(ts).None? && FirstIs(ts, g, IsGroup)
    ensures var r := TokenParse(scan, ts, fuel);
            var inner := scan(ts[g].contents);
            && (fuel == 0 ==> r == Failure(TooDeep))
            && (fuel > 0 && inner.Failure? ==> r == Failure(Lexical(inner.error)))
            && (fuel > 0 && inner.Success? ==>
                  var e := TokenParse(scan, inner.value, fuel - 1);
                  && (r.Success? <==> e.Success?)
                  && (r.Success? ==> r.value == Some(Op("", [e.value])))
                  && (r.Failure? ==> r.error == e.error))
  {
    assert FirstWhere(ts, IsGroup) == g;
  }

  lemma SingleTokenMentions(t: Token, name: string)
    ensures Mentions([t], name) <==> t.name == name
  {
    if t.name == name {
      assert [t][0].name == name;
    }
  }

  /** Every token other than the first plain parenthesis is ignored,
      MEAN/MEDIAN tokens included: the span parses as that token alone. */
  lemma GroupIgnoresOthers(scan: Scanner, ts: seq<Token>, g: int, fuel: nat)
    requires DominantOp(ts).None? && FirstIs(ts, g, IsGroup)
    ensures TokenParse(scan, ts, fuel) == TokenParse(scan, [ts[g]], fuel)
  {
    assert FirstWhere(ts, IsGroup) == g;
    forall k | 0 <= k < |Operators|
      ensures !Mentions([ts[g]], Operators[k])
    {
      SingleTokenMentions(ts[g], Operators[k]);
      OperatorSymbol(Operators[k]);
    }
    assert DominantOp([ts[g]]).None?;
    assert FirstWhere([ts[g]], IsGroup) == 0;
  }

  // ---------------------------------------------------------------------
  // MEAN and MEDIAN

  /** `TryParseAll` succeeds exactly when every piece parses, and then its
      values are the pieces' parses, in order. */
  lemma TryParseAllSuccess(scan: Scanner, pieces: seq<string>, fuel: nat)
    ensures var r := TryParseAll(scan, pieces, fuel);
            && (r.Success? <==> forall k | 0 <= k < |pieces| :: TryParse(scan, pieces[k], fuel).Success?)
            && (r.Success? ==> forall k | 0 <= k < |pieces| :: TryParse(scan, pieces[k], fuel) == Success(r.value[k]))
  {
    var rs := seq(|pieces|, k requires 0 <= k < |pieces| => TryParse(scan, pieces[k], fuel));
    assert TryParseAll(scan, pieces, fuel) == Collect(rs);
    forall k | 0 <= k < |pieces|
      ensures rs[k] == TryParse(scan, pieces[k], fuel)
    {
    }
  }

  /** When `TryParseAll` fails, its error is that of the first piece that
      does not parse. */
  lemma TryParseAllFailure(scan: Scanner, pieces: seq<string>, fuel: nat)
    requires TryParseAll(scan, pieces, fuel).Failure?
    ensures exists k | 0 <= k < |pieces| ::
              && TryParse(scan, pieces[k], fuel) == Failure(TryParseAll(scan, pieces, fuel).error)
              && forall j | 0 <= j < k :: TryParse(scan, pieces[j], fuel).Success?
  {
    var rs := seq(|pieces|, k requires 0 <= k < |pieces| => TryParse(scan, pieces[k], fuel));
    var r := TryParseAll(scan, pieces, fuel);
    assert r == Collect(rs);
    var k :| 0 <= k < |rs| && rs[k] == Failure(r.error) && forall j | 0 <= j < k :: rs[j].Success?;
    assert rs[k] == TryParse(scan, pieces[k], fuel);
    forall j | 0 <= j < k
      ensures TryParse(scan, pieces[j], fuel).Success?
    {
      assert rs[j] == TryParse(scan, pieces[j], fuel);
    }
  }

  lemma AggregateParseResult(scan: Scanner, t: Token, fuel: nat)
    requires IsAggregate(t) && fuel > 0
    ensures var ps := TryParseAll(scan, Split(t.contents, ','), fuel - 1);
            AggregateParse(scan, t, fuel) == if ps.Success? then Success(Some(Op(t.name, ps.value))) else Failure(ps.error)
  {
  }

  lemma AggregateParseRule(scan: Scanner, t: Token, depth: nat)
    requires IsAggregate(t)
    ensures var r := AggregateParse(scan, t, depth + 1);
            var pieces := Split(t.contents, ',');
            && (r.Success? <==> forall k | 0 <= k < |pieces| :: TryParse(scan, pieces[k], depth).Success?)
            && (r.Success? ==>
                  && r.value.Some? && r.value.value.Op? && r.value.value.name == t.name
                  && |r.value.value.args| == |pieces|
                  && forall k | 0 <= k < |pieces| :: TryParse(scan, pieces[k], depth) == Success(r.value.value.args[k]))
  {
    AggregateParseResult(scan, t, depth + 1);
    NodeOfPieces(scan, t.name, Split(t.contents, ','), depth);
  }

  lemma NodeOfPieces(scan: Scanner, name: string, pieces: seq<string>, fuel: nat)
    ensures var ps := TryParseAll(scan, pieces, fuel);
            var r: Result<Option<Expr>, ParseError> := if ps.Success? then Success(Some(Op(name, ps.value))) else Failure(ps.error);
            && (r.Success? <==> forall k | 0 <= k < |pieces| :: TryParse(scan, pieces[k], fuel).Success?)
            && (r.Success? ==>
                  && r.value.Some? && r.value.value.Op? && r.value.value.name == name
                  && |r.value.value.args| == |pieces|
                  && forall k | 0 <= k < |pieces| :: TryParse(scan, pieces[k], fuel) == Success(r.value.value.args[k]))
  {
    TryParseAllSuccess(scan, pieces, fuel);
  }

  lemma AggregateCase(scan: Scanner, ts: seq<Token>, a: int, fuel: nat)
    requires DominantOp(ts).None? && FirstIs(ts, a, IsAggregate)
    requires forall k | 0 <= k < |ts| :: !IsGroup(ts[k])
    ensures TokenParse(scan, ts, fuel) == AggregateParse(scan, ts[a], fuel)
  {
    assert FirstWhere(ts, IsGroup) == |ts|;
    assert FirstWhere(ts, IsAggregate) == a;
  }

  /** The MEAN/MEDIAN rule: with no operator and no plain parenthesis, the
      first aggregate token gives a node of its own name with one operand
      per piece of its contents split at commas (trailing empty pieces
      dropped), each piece stripped and parsed on its own, one level of
      nesting deeper. */
  lemma AggregateRule(scan: Scanner, ts: seq<Token>, a: int, depth: nat)
    requires DominantOp(ts).None? && FirstIs(ts, a, IsAggregate)
    requires forall k | 0 <= k < |ts| :: !IsGroup(ts[k])
    ensures var r := TokenParse(scan, ts, depth + 1);
            var pieces := Split(ts[a].contents, ',');
            && (r.Success? <==> forall k | 0 <= k < |pieces| :: TryParse(scan, pieces[k], depth).Success?)
            && (r.Success? ==>
                  && r.value.Some? && r.value.value.Op? && r.value.value.name == ts[a].name
                  && |r.value.value.args| == |pieces|
                  && forall k | 0 <= k < |pieces| :: TryParse(scan, pieces[k], depth) == Success(r.value.value.args[k]))
  {
    AggregateCase(scan, ts, a, depth + 1);
    AggregateParseRule(scan, ts[a], depth);
  }

  lemma AggregateParseFailure(scan: Scanner, t: Token, depth: nat)
    requires IsAggregate(t) && AggregateParse(scan, t, depth + 1).Failure?
    ensures var pieces := Split(t.contents, ',');
            exists k | 0 <= k < |pieces| ::
              && TryParse(scan, pieces[k], depth) == Failure(AggregateParse(scan, t, depth + 1).error)
              && forall j | 0 <= j < k :: TryParse(scan, pieces[j], depth).Success?
  {
    AggregateParseResult(scan, t, depth + 1);
    TryParseAllFailure(scan, Split(t.contents, ','), depth);
  }

  /** When the MEAN/MEDIAN rule fails, the error is that of the first piece
      that does not parse. */
  lemma AggregateRuleFailure(scan: Scanner, ts: seq<Token>, a: int, depth: nat)
    requires DominantOp(ts).None? && FirstIs(ts, a, IsAggregate)
    requires forall k | 0 <= k < |ts| :: !IsGroup(ts[k])
    requires TokenParse(scan, ts, depth + 1).Failure?
    ensures var pieces := Split(ts[a].contents, ',');
            exists k | 0 <= k < |pieces| ::
              && TryParse(scan, pieces[k], depth) == Failure(TokenParse(scan, ts, depth + 1).error)
              && forall j | 0 <= j < k :: TryParse(scan, pieces[j], depth).Success?
  {
    AggregateCase(scan, ts, a, depth + 1);
    AggregateParseFailure(scan, ts[a], depth);
  }

  // ---------------------------------------------------------------------
  // Empty span, constants, references

  /** A span whose token names are all longer than one character mentions
      no operator. */
  lemma NoOperatorNamed(ts: seq<Token>)
    requires forall i | 0 <= i < |ts| :: |ts[i].name| > 1
    ensures DominantOp(ts).None?
  {
    forall k | 0 <= k < |Operators|
      ensures !Mentions(ts, Operators[k])
    {
      OperatorSymbol(Operators[k]);
    }
  }

  /** With no operator, parenthesis or aggregate, the leaf rules decide. */
  lemma LeafRule(scan: Scanner, ts: seq<Token>, fuel: nat)
    requires DominantOp(ts).None? && NoGroupOrAggregate(ts)
    ensures TokenParse(scan, ts, fuel) == ParseLeaf(ts)
  {
    assert FirstWhere(ts, IsGroup) == |ts|;
    assert FirstWhere(ts, IsAggregate) == |ts|;
  }

  /** The span yields no expression (Java `null`, not an error) exactly
      when it is non-empty and no rule applies: no operator, parenthesis,
      aggregate, valid long constant or reference token. */
  lemma NoExpressionIff(scan: Scanner, ts: seq<Token>, fuel: nat)
    ensures TokenParse(scan, ts, fuel) == Success(None) <==>
              && |ts| > 0 && DominantOp(ts).None? && NoGroupOrAggregate(ts)
              && forall k | 0 <= k < |ts| :: !IsLongConst(ts[k]) && !IsReferenceToken(ts[k])
  {
    var r := TokenParse(scan, ts, fuel);
    if DominantOp(ts).None? {
      var g := FirstWhere(ts, IsGroup);
      var a := FirstWhere(ts, IsAggregate);
      if g < |ts| {
        assert r == GroupParse(scan, ts[g], fuel);
      } else if a < |ts| {
        assert r == AggregateParse(scan, ts[a], fuel);
      } else {
        assert r == ParseLeaf(ts);
        var c := FirstWhere(ts, IsLongConst);
        var f := FirstWhere(ts, IsReferenceToken);
        if c < |ts| {
          assert FirstIs(ts, c, IsLongConst);
        } else if f < |ts| {
          assert FirstIs(ts, f, IsReferenceToken);
        }
      }
    }
  }

  /** A single reference token: a reference when its name is letters and
      digits, an error naming it otherwise, unless the name is itself an
      operator symbol, which the operator rule takes first. */
  lemma ReferenceRule(scan: Scanner, name: string, contents: string, fuel: nat)
    requires name !in Operators
    ensures TokenParse(scan, [Token(REFERENCE, name, contents)], fuel) ==
              if AllAlphanumeric(name) then Success(Some(Reference(name)))
              else Failure(UnknownInput(name))
  {
    var ts := [Token(REFERENCE, name, contents)];
    forall k | 0 <= k < |Operators|
      ensures !Mentions(ts, Operators[k])
    {
      SingleTokenMentions(ts[0], Operators[k]);
    }
    LeafRule(scan, ts, fuel);
    assert FirstIs(ts, 0, IsReferenceToken);
  }

  lemma ParsedLongIsNoOperator(s: string)
    requires ParseLong(s).Some?
    ensures s !in Operators
  {
    forall k | 0 <= k < |Operators|
      ensures ParseLong(Operators[k]).None?
    {
      OperatorSymbol(Operators[k]);
      assert !IsDigit(Operators[k][0]);
    }
  }

  /** A single constant token: the constant when `Long.parseLong` accepts
      its text, and no expression (not an error) when it does not. */
  lemma ConstantRule(scan: Scanner, text: string, contents: string, fuel: nat)
    requires text !in Operators
    ensures TokenParse(scan, [Token(CONST, text, contents)], fuel) ==
              match ParseLong(text)
              case Some(v) => Success(Some(Constant(v)))
              case None => Success(None)
  {
    var ts := [Token(CONST, text, contents)];
    forall k | 0 <= k < |Operators|
      ensures !Mentions(ts, Operators[k])
    {
      SingleTokenMentions(ts[0], Operators[k]);
    }
    LeafRule(scan, ts, fuel);
    if ParseLong(text).Some? {
      assert FirstIs(ts, 0, IsLongConst);
    }
  }

  lemma ExampleConstantTexts()
    ensures ParseLong("99999999999999999999").None?
    ensures ParseLong("007") == Some(7)
    ensures ParseLong("+7") == Some(7) && ParseLong("-0") == Some(0)
    ensures ParseLong("+").None? && ParseLong("5x").None?
  {
    TooManyDigitsRejected("99999999999999999999");
    assert "007" == "00" + "7";
    LeadingZerosAccepted("00", "7");
    assert "7"[..0] == "";
    PlusSignAccepted("7");
    assert "-0"[1..] == "0";
    assert !IsDigit("5x"[1]);
  }

  /** Constant tokens that `Long.parseLong` rejects are skipped, not
      reported, and a valid constant anywhere in the span beats a
      reference token before it. */
  lemma ConstantSkipsInvalid(scan: Scanner, bad: string, reference: string, good: string, fuel: nat)
    requires ParseLong(bad).None? && ParseLong(good).Some?
    requires bad !in Operators && reference !in Operators
    ensures var ts := [Token(CONST, bad, ""), Token(REFERENCE, reference, ""), Token(CONST, good, "")];
            TokenParse(scan, ts, fuel) == Success(Some(Constant(ParseLong(good).value)))
  {
    var ts := [Token(CONST, bad, ""), Token(REFERENCE, reference, ""), Token(CONST, good, "")];
    ParsedLongIsNoOperator(good);
    forall k | 0 <= k < |Operators|
      ensures !Mentions(ts, Operators[k])
    {
      assert ts[0].name != Operators[k] && ts[1].name != Operators[k] && ts[2].name != Operators[k];
    }
    LeafRule(scan, ts, fuel);
    assert FirstIs(ts, 2, IsLongConst);
  }

  // ---------------------------------------------------------------------
  // Whitespace around the input

  /** Leading and trailing whitespace does not affect `tryParse`. */
  lemma TryParseIgnoresSurroundingWhitespace(scan: Scanner, input: string, fuel: nat)
    ensures TryParse(scan, input, fuel) == TryParse(scan, Strip(input), fuel)
  {
    StripIdempotent(input);
  }

  /** Leading and trailing whitespace does not affect `parse`; in
      particular, with a scanner that reads no tokens from the empty text,
      an input of whitespace only is the empty expression. */
  lemma ParseIgnoresSurroundingWhitespace(scan: Scanner, input: string, fuel: nat)
    ensures Parse(scan, input, fuel) == Parse(scan, Strip(input), fuel)
    ensures Strip(input) == "" && scan("") == Success([]) ==> Parse(scan, input, fuel) == Success(Some(Empty))
  {
    TryParseIgnoresSurroundingWhitespace(scan, input, fuel);
  }
}

=== FILE: sorting.dfy ===
/** What `Arrays.sort` leaves in a `long[]`: the ascending arrangement of
    its elements. Every correct sort produces the same sequence
    (`SortedUnique`), so the model fixes one, insertion sort, without loss. */
module Sorting {
  import opened Totals

  predicate Sorted(s: seq<int>) {
    forall i, j | 0 <= i < j < |s| :: s[i] <= s[j]
  }

  /** Put `x` into its place in the sorted `s`. */
  function Insert(x: int, s: seq<int>): (r: seq<int>)
    requires Sorted(s)
    ensures Sorted(r)
    ensures |r| == |s| + 1
    ensures multiset(r) == multiset(s) + multiset{x}
  {
    if |s| == 0 then [x]
    else if x <= s[0] then
      ConsSorted(x, s);
      [x] + s
    else
      var rest := Insert(x, s[1..]);
      assert s == [s[0]] + s[1..];
      assert forall i | 0 <= i < |rest| :: s[0] <= rest[i] by {
        forall i | 0 <= i < |rest|
          ensures s[0] <= rest[i]
        {
          assert rest[i] in multiset(rest);
        }
      }
      ConsSorted(s[0], rest);
      [s[0]] + rest
  }

  lemma ConsSorted(x: int, s: seq<int>)
    requires Sorted(s) && forall i | 0 <= i < |s| :: x <= s[i]
    ensures Sorted([x] + s)
  {
  }

  /** `Arrays.sort`: the elements of `s` in ascending order. */
  function Sort(s: seq<int>): (r: seq<int>)
    ensures Sorted(r)
    ensures |r| == |s|
    ensures multiset(r) == multiset(s)
  {
    if |s| == 0 then []
    else
      assert s == [s[0]] + s[1..];
      Insert(s[0], Sort(s[1..]))
  }

  /** A sorted sequence is determined by its multiset of elements. */
  lemma {:induction false} SortedUnique(a: seq<int>, b: seq<int>)
    requires Sorted(a) && Sorted(b) && multiset(a) == multiset(b)
    ensures a == b
    decreases |a|
  {
    if |a| == 0 {
      assert |b| == |multiset(b)| == 0;
    } else {
      assert |b| == |multiset(b)| > 0;
      assert a[0] in multiset(b) && b[0] in multiset(a);
      assert a[0] == b[0];
      assert a == [a[0]] + a[1..];
      assert b == [b[0]] + b[1..];
      assert multiset(a[1..]) == multiset(a) - multiset{a[0]};
      assert multiset(b[1..]) == multiset(b) - multiset{b[0]};
      SortedUnique(a[1..], b[1..]);
    }
  }

  /** Sorting does not depend on the original order. */
  lemma SortPermutation(a: seq<int>, b: seq<int>)
    requires multiset(a) == multiset(b)
    ensures Sort(a) == Sort(b)
  {
    SortedUnique(Sort(a), Sort(b));
  }

  /** In a sorted sequence the element at index `k` has rank `k`. */
  lemma SortedRank(s: seq<int>, k: int)
    requires Sorted(s) && 0 <= k < |s|
    ensures HasRank(s, k, s[k])
  {
    var v := s[k];
    assert s == s[..k] + s[k..];
    TotalConcat(s[..k], s[k..], Below(v));
    TotalBetween(s[..k], Below(v), 0, 1);
    TotalBetween(s[k..], Below(v), 0, 0);
    assert s == s[..k + 1] + s[k + 1..];
    TotalConcat(s[..k + 1], s[k + 1..], AtMost(v));
    TotalBetween(s[..k + 1], AtMost(v), 1, 1);
    TotalBetween(s[k + 1..], AtMost(v), 0, 1);
  }

  /** The element at index `k` of the sorted arrangement is the element of
      rank `k`, and no other value has that rank. */
  lemma SortRank(s: seq<int>, k: int, v: int)
    requires 0 <= k < |s|
    ensures HasRank(s, k, v) <==> Sort(s)[k] == v
  {
    SortedRank(Sort(s), k);
    RankPermutation(Sort(s), s, k, Sort(s)[k]);
    RankPermutation(Sort(s), s, k, v);
    if HasRank(s, k, v) {
      RankUnique(s, k, v, Sort(s)[k]);
    }
  }
}

=== FILE: syntax.dfy ===
/** Tokens, expression trees and parse errors shared by the scanner and the
    parser. */
module Syntax {
  import opened Wrappers
  import opened JavaLong

  /** The scanner's token kinds (`ComplexScanner.TokenType`). */
  datatype TokenType = CONST | OP | REFERENCE | FUNC

  /** A scanner token. `name` is the literal text of a CONST, OP or REFERENCE
      token, and for a FUNC token the function name (`""` for a plain
      parenthesis, `MEAN`, `MEDIAN`). `contents` is the unparsed text between
      the parentheses of a FUNC token; other tokens carry Java `null` there,
      written `""` since the parser never reads it. */
  datatype Token = Token(kind: TokenType, name: string, contents: string)

  /** The expression nodes the factory builds. An operator's operands are
      optional because a sub-parse that matched no rule yields Java `null`,
      which the parser hands to the factory as it is. */
  datatype Expr =
    | Empty
    | Constant(value: Int64)
    | Reference(name: string)
    | Op(name: string, args: seq<Option<Expr>>)

  /** Why a parse fails: the scanner rejected the text (for instance
      unbalanced parentheses), a reference held a character that is neither
      a letter nor a digit, or the parentheses were nested deeper than the
      fuel the model was given. */
  datatype ParseError = Lexical(message: string) | UnknownInput(name: string) | TooDeep

  /** The tokenizer `ComplexScanner.tokenize`, which is not part of this
      model: the parser takes it as a parameter. A failure carries the
      scanner's message. */
  type Scanner = string -> Result<seq<Token>, string>
}

=== FILE: totals.dfy ===
/** Sums of a function over the elements of a sequence, and the facts about
    them that do not depend on the order of the elements. */
module Totals {
  /** `f(s[0]) + f(s[1]) + ...`. */
  function Total(s: seq<int>, f: int -> int): int {
    if |s| == 0 then 0 else f(s[0]) + Total(s[1..], f)
  }

  lemma {:induction false} TotalConcat(a: seq<int>, b: seq<int>, f: int -> int)
    ensures Total(a + b, f) == Total(a, f) + Total(b, f)
    decreases |a|
  {
    if |a| > 0 {
      assert (a + b)[1..] == a[1..] + b;
      TotalConcat(a[1..], b, f);
    } else {
      assert a + b == b;
    }
  }

  /** Removing the element at index `i` removes its term from the total. */
  lemma TotalRemove(s: seq<int>, i: int, f: int -> int)
    requires 0 <= i < |s|
    ensures Total(s, f) == f(s[i]) + Total(s[..i] + s[i + 1..], f)
  {
    assert s == s[..i] + s[i..];
    TotalConcat(s[..i], s[i..], f);
    TotalConcat(s[..i], s[i + 1..], f);
  }

  /** The total depends only on the multiset of elements. */
  lemma {:induction false} TotalPermutation(a: seq<int>, b: seq<int>, f: int -> int)
    requires multiset(a) == multiset(b)
    ensures Total(a, f) == Total(b, f)
    decreases |a|
  {
    if |a| > 0 {
      assert a[0] in multiset(b);
      var i :| 0 <= i < |b| && b[i] == a[0];
      var rest := b[..i] + b[i + 1..];
      assert b == b[..i] + [b[i]] + b[i + 1..];
      assert multiset(rest) == multiset(b[..i]) + multiset(b[i + 1..]);
      assert multiset(b) == multiset(rest) + multiset{a[0]};
      assert a == [a[0]] + a[1..];
      assert multiset(a[1..]) == multiset(a) - multiset{a[0]};
      assert multiset(a[1..]) == multiset(rest);
      TotalPermutation(a[1..], rest, f);
      TotalRemove(b, i, f);
    } else {
      assert |b| == 0;
    }
  }

  /** A term-by-term bound carries over to the totals. */
  lemma {:induction false} TotalMonotone(s: seq<int>, f: int -> int, g: int -> int)
    requires forall i | 0 <= i < |s| :: f(s[i]) <= g(s[i])
    ensures Total(s, f) <= Total(s, g)
    decreases |s|
  {
    if |s| > 0 {
      TotalMonotone(s[1..], f, g);
    }
  }

  /** Terms bounded by `lo` and `hi` give a total between `lo` and `hi`
      times the length. */
  lemma {:induction false} TotalBetween(s: seq<int>, f: int -> int, lo: int, hi: int)
    requires forall i | 0 <= i < |s| :: lo <= f(s[i]) <= hi
    ensures lo * |s| <= Total(s, f) <= hi * |s|
    decreases |s|
  {
    if |s| > 0 {
      TotalBetween(s[1..], f, lo, hi);
      assert lo * |s| == lo + lo * |s[1..]|;
      assert hi * |s| == hi + hi * |s[1..]|;
    }
  }

  /** The indicator of the values below `v`. */
  function Below(v: int): int -> int {
    x => if x < v then 1 else 0
  }

  /** The indicator of the values at or below `v`. */
  function AtMost(v: int): int -> int {
    x => if x <= v then 1 else 0
  }

  /** How many elements of `s` are smaller than `v`. */
  function CountBelow(s: seq<int>, v: int): int {
    Total(s, Below(v))
  }

  /** How many elements of `s` are at most `v`. */
  function CountAtMost(s: seq<int>, v: int): int {
    Total(s, AtMost(v))
  }

  /** `v` is the element of rank `k` (counting from 0) of `s` in ascending
      order: at most `k` elements lie below it and more than `k` lie at or
      below it. It is an element of `s`, and it is the same for every
      arrangement of `s` (`RankUnique`, `RankPermutation`). */
  predicate HasRank(s: seq<int>, k: int, v: int) {
    CountBelow(s, v) <= k < CountAtMost(s, v)
  }

  /** The value of a given rank is unique. */
  lemma RankUnique(s: seq<int>, k: int, v: int, w: int)
    requires HasRank(s, k, v) && HasRank(s, k, w)
    ensures v == w
  {
    if v < w {
      TotalMonotone(s, AtMost(v), Below(w));
    } else if w < v {
      TotalMonotone(s, AtMost(w), Below(v));
    }
  }

  /** Ranks depend only on the multiset of elements. */
  lemma RankPermutation(a: seq<int>, b: seq<int>, k: int, v: int)
    requires multiset(a) == multiset(b)
    ensures HasRank(a, k, v) <==> HasRank(b, k, v)
  {
    TotalPermutation(a, b, Below(v));
    TotalPermutation(a, b, AtMost(v));
  }

  /** An element of a given rank occurs in the sequence. */
  lemma {:induction false} RankedIsElement(s: seq<int>, k: int, v: int)
    requires HasRank(s, k, v)
    ensures v in s
  {
    if v !in s {
      assert forall i | 0 <= i < |s| :: AtMost(v)(s[i]) <= Below(v)(s[i]);
      TotalMonotone(s, AtMost(v), Below(v));
    }
  }
}

=== FILE: wrappers.dfy ===
/** Failure-compatible wrappers used throughout the model: `Option` stands for
    a Java reference that may be `null`, `Result` for a value or a thrown
    exception. */
module Wrappers {

  datatype Option<+T> = None | Some(value: T)

  datatype Result<+T, +E> = Success(value: T) | Failure(error: E) {

    predicate IsFailure() {
      Failure?
    }

    function PropagateFailure<U>(): Result<U, E>
      requires Failure?
    {
      Failure(error)
    }

    function Extract(): T
      requires Success?
    {
      value
    }
  }
}
